=== FILE: README.md ===
# GachaPlus in Dafny

GachaPlus is a Minecraft (Bukkit) plugin for "gacha" draw points. An
administrator writes `[gacha]` on the first line of a sign, a name on the
second, a display name on the third and a price on the fourth. The plugin
stores the sign in an SQLite table and rewrites it. `/gachaplus modify
<name>` then asks the administrator to punch a chest, and the punched chest
becomes the prize chest of that name. A player who right-clicks the sign
pays the price through the Vault economy, loses one item of the stack in
the main hand (the ticket), and receives a copy of a random slot of the
prize chest. Registered signs are recognised through an in-memory cache of
`world_x_y_z` keys.

The model has these modules:

- `Common`: Java `int` (`i32`) and its wrap-around, nullable results (`Option`), block locations, players, senders and item stacks.
- `Decimal`: `String.valueOf(int)` and `Integer.parseInt`.
- `Keys`: the cache key and its injectivity.
- `Registry`: the `gacha` table as a sequence of rows.
  - Its three unique indexes become the invariant `WellFormed`.
  - The database object's state is a value `DbState` (rows, AUTOINCREMENT counter, cached keys, expiry).
  - Each database operation has a specification function giving its result and next state.
  - Lemmas state what the operations promise.
- `Database`: the class `GachaDatabase`, whose methods run the `rs.next()` loops step by step. Each method is proved to end in the state its specification function gives.
- `Utility`: the pending-bind ("punch") store as the class `PunchTracker`, and the target selector `GetTarget`.
- `Handlers`: the three event handlers as functions from the state before the event to the outcome and the state after it (`Register`, `Buy` with `Sell` and `Draw`, `BindChest`), the click routing, and the lemmas about the order of side effects.
- `Listener`: the class `GachaListener`, whose methods perform the handlers on the live objects: database, punch store, event, player. Each is proved to agree with its handler function.
- `Command`: the class `GachaCommand` (`list`, `modify`, `delete`, `reload`, `enable`, `disable`).
- `Plugin`: `onCommand`'s permission-gated dispatch and the object graph `onEnable` builds.
- `Scenario`: one draw point across registration, `modify`, chest bind and purchase.

Storage, the clock, the economy and the server are parameters:

- Every SQL statement takes a flag saying whether it executed (`false` stands for an `SQLException`).
- `now` is `System.currentTimeMillis()`.
- `withdrawOk` is Vault's `transactionSuccess()`.
- `pick` is the value of `Random.nextInt`.
- `chests` maps chest block locations to their slots.
- `format` is `economy.format`.
- `nearest` is the result of the nearest-player search.

Where the code and its documentation differ, the model follows the code, with one exception, the click routing (see "## Findings"):

- The sign handler uses the one-argument `isGacha`, with its inverted expiry test. It does not force a refresh.
- `deleteGacha` reports success when no row matched.
- Negative prices are accepted.
- A purchase looks the price up by the sign's second line as it reads at the time, including the configured `sign-line2-prefix`.
- `chestProc` binds only x, y and z. The chest is taken in the row's own world, not the world of the clicked block.
- `getGachaChest` on a sign without a row unboxes null coordinates. The `NullPointerException` this throws ends the purchase after the payment (`NoChest(NoRow)`).

## Model

| member | source | states |
|---|---|---|
| Common.Wrap32 | src/main/java/com/github/tunagohan/gachaplus/GachaPlusDatabase.java:401 | `ttl * 1000` in Java `int` arithmetic: equal to the true product when that fits in 32 bits, and always congruent to it modulo 2^32 |
| Decimal.NatToStringDigits | src/main/java/com/github/tunagohan/gachaplus/GachaPlusDatabase.java:392-397 | the decimal text of a natural number is non-empty and all digits |
| Decimal.IntToStringShape | src/main/java/com/github/tunagohan/gachaplus/GachaPlusDatabase.java:363-369 | `String.valueOf(n)` starts with `-` exactly when n < 0, is otherwise digits, and never contains `_` |
| Decimal.NatToStringRoundTrip | src/main/java/com/github/tunagohan/gachaplus/GachaPlusDatabase.java:392-397 | reading back the printed digits gives the number |
| Decimal.ParseIntRoundTrip | src/main/java/com/github/tunagohan/gachaplus/GachaPlusListener.java:74 | `Integer.parseInt(String.valueOf(n)) == n` for every Java int |
| Decimal.IntToStringInjective | src/main/java/com/github/tunagohan/gachaplus/GachaPlusDatabase.java:363-369 | distinct integers print differently |
| Decimal.NegativeAccepted | src/main/java/com/github/tunagohan/gachaplus/GachaPlusListener.java:74 | every price line `-` followed by the digits of k, for k up to 2^31, parses to -k, so negative prices are not rejected |
| Decimal.IntToString | src/main/java/com/github/tunagohan/gachaplus/GachaPlusDatabase.java:363-369 | `String.valueOf(int)`: a minus sign for negatives, then the digits without leading zeros; its meaning is stated by IntToStringShape, ParseIntRoundTrip and IntToStringInjective |
| Decimal.ParseInt | src/main/java/com/github/tunagohan/gachaplus/GachaPlusListener.java:74 | `Integer.parseInt`: an optional sign and one or more digits whose value fits in an `int`, otherwise `NumberFormatException` (None); ParseIntRoundTrip and NegativeAccepted state what it accepts |
| Keys.CacheKeyInjective | src/main/java/com/github/tunagohan/gachaplus/GachaPlusDatabase.java:363-369 | two locations with the same `world_x_y_z` key are equal, even when world names contain `_` |
| Keys.CacheKey | src/main/java/com/github/tunagohan/gachaplus/GachaPlusDatabase.java:363-369 | the `world_x_y_z` key of a location, with the coordinates as `String.valueOf` prints them; CacheKeyInjective states that it identifies the location |
| Registry.LastNamed | src/main/java/com/github/tunagohan/gachaplus/GachaPlusDatabase.java:269-271 | the name lookup keeps the last row the query returns: that row has the name, no later row has it, and none exists exactly when no row has it |
| Registry.LastAtSign | src/main/java/com/github/tunagohan/gachaplus/GachaPlusDatabase.java:300-314 | the same for the lookup by sign location |
| Registry.IdOf | src/main/java/com/github/tunagohan/gachaplus/GachaPlusDatabase.java:261-278 | `SELECT id … WHERE gacha_name = ?`: the id of the last row with the name, or null when none has it; LastNamed and NamedRowUnique state it |
| Registry.PriceOf | src/main/java/com/github/tunagohan/gachaplus/GachaPlusDatabase.java:502-519 | `SELECT gacha_price … WHERE gacha_name = ?`: the price of the last row with the name, or null when none has it; LastNamed, NamedRowUnique and RegisteredSignResolves state it |
| Registry.NamedRowUnique | src/main/java/com/github/tunagohan/gachaplus/GachaPlusDatabase.java:168 | under the name index, a name picks out exactly one row, whose id and price the lookups return |
| Registry.SignRowUnique | src/main/java/com/github/tunagohan/gachaplus/GachaPlusDatabase.java:169 | under the sign index, a sign location picks out exactly one row |
| Registry.SignKeysMembership | src/main/java/com/github/tunagohan/gachaplus/GachaPlusDatabase.java:385-398 | a location's key is among the keys of a table exactly when some row's sign is at that location |
| Registry.RefreshIsExact | src/main/java/com/github/tunagohan/gachaplus/GachaPlusDatabase.java:385-404 | after a successful refresh the cache is in step with the table, membership answers "is there a row whose sign is here", and the expiry is now + ttl*1000 |
| Registry.CachedIffRegistered | src/main/java/com/github/tunagohan/gachaplus/GachaPlusDatabase.java:358-373 | while the cache is in step, `isGacha(loc, false)` holds exactly for registered sign locations |
| Registry.ExpiryTestInverted | src/main/java/com/github/tunagohan/gachaplus/GachaPlusDatabase.java:339-345 | `isGacha(loc)` refreshes before expiry and never after it |
| Registry.Refreshed | src/main/java/com/github/tunagohan/gachaplus/GachaPlusDatabase.java:385-404 | the state after `refreshCache`: the keys of every row's sign and the expiry moved forward, or nothing changed on failure; RefreshIsExact states it |
| Registry.Checked | src/main/java/com/github/tunagohan/gachaplus/GachaPlusDatabase.java:339-345 | the state after the one-argument `isGacha`'s cache test, refreshing only while `expireCache > now`; ExpiryTestInverted states it |
| Registry.CheckedWith | src/main/java/com/github/tunagohan/gachaplus/GachaPlusDatabase.java:358-362 | the state effect of `isGacha(loc, cacheClear)`: a refresh when asked, nothing otherwise; CachedIffRegistered and ExpiryTestInverted state it |
| Registry.CreatePreservesWellFormed | src/main/java/com/github/tunagohan/gachaplus/GachaPlusDatabase.java:422-464 | get-or-create keeps ids ascending and the three unique indexes satisfied |
| Registry.CreateOutcome | src/main/java/com/github/tunagohan/gachaplus/GachaPlusDatabase.java:422-464 | get-or-create returns null with nothing changed, or the id of the one row that carries the name |
| Registry.CreateIdempotent | src/main/java/com/github/tunagohan/gachaplus/GachaPlusDatabase.java:426-429 | a second get-or-create of a name that yielded an id returns the same id and changes nothing, whatever its other arguments |
| Registry.UnboundChestBlocksCreate | src/main/java/com/github/tunagohan/gachaplus/GachaPlusDatabase.java:161-170 | with a row of that world still at the default chest (0,0,0), the insert of a new name violates the chest index: null, nothing changed |
| Registry.Create | src/main/java/com/github/tunagohan/gachaplus/GachaPlusDatabase.java:422-464 | get-or-create: the id of an existing row with the name, or an insert that the unique indexes may reject, then a refresh; CreateOutcome, CreateIdempotent and CreatePreservesWellFormed state it |
| Registry.Without | src/main/java/com/github/tunagohan/gachaplus/GachaPlusDatabase.java:242 | the DELETE keeps exactly the rows of other names |
| Registry.WithoutWellFormed | src/main/java/com/github/tunagohan/gachaplus/GachaPlusDatabase.java:239-254 | deleting rows keeps the table well formed |
| Registry.DeleteEffect | src/main/java/com/github/tunagohan/gachaplus/GachaPlusDatabase.java:239-254 | a DELETE that executes returns true whether or not a row matched, leaves no row of that name and every other row, and with a working refresh leaves the cache in step |
| Registry.Delete | src/main/java/com/github/tunagohan/gachaplus/GachaPlusDatabase.java:239-254 | the DELETE by name followed by a refresh; DeleteEffect states it |
| Registry.UpdateChestOutcome | src/main/java/com/github/tunagohan/gachaplus/GachaPlusDatabase.java:475-500 | `updateGachaChest` returns true exactly when the lookup runs and finds the name, the UPDATE executes and the new chest does not clash on the chest index; a false result leaves the table, counter, cache and expiry unchanged |
| Registry.UpdateChestPreservesWellFormed | src/main/java/com/github/tunagohan/gachaplus/GachaPlusDatabase.java:475-500 | the chest UPDATE keeps the table well formed (a clash with another row's chest is rejected by the index) |
| Registry.UpdateChestKeepsCache | src/main/java/com/github/tunagohan/gachaplus/GachaPlusDatabase.java:475-500 | a bind changes no sign, so the cache stays in step without a refresh, and the cache and expiry are untouched |
| Registry.UpdateChestBinds | src/main/java/com/github/tunagohan/gachaplus/GachaPlusDatabase.java:484-492 | after a successful bind the named row's chest x, y and z become the given coordinates in that row's world; every field of every row (id, name, display name, price, sign) is otherwise unchanged, and so are the id counter, the cache and the expiry |
| Registry.UpdateChest | src/main/java/com/github/tunagohan/gachaplus/GachaPlusDatabase.java:475-500 | the chest UPDATE by name, rejected when no row has the name, the UPDATE fails or the chest index would clash; UpdateChestOutcome states when it is rejected, UpdateChestBinds what a success changes, UpdateChestKeepsCache and UpdateChestPreservesWellFormed what it keeps |
| Registry.ChestOfFound | src/main/java/com/github/tunagohan/gachaplus/GachaPlusDatabase.java:285-332 | a resolved chest is a chest block in the sign's world, bound to a row whose sign is there |
| Registry.ChestOf | src/main/java/com/github/tunagohan/gachaplus/GachaPlusDatabase.java:285-332 | `getGachaChest`: the chest of the last row whose sign is at the location, when that block is a chest; ChestOfFound and RegisteredSignResolves state it |
| Registry.Listings | src/main/java/com/github/tunagohan/gachaplus/GachaPlusDatabase.java:188-232 | `list()` yields one entry per row, the k-th being the k-th newest row |
| Registry.NewestFirst | src/main/java/com/github/tunagohan/gachaplus/GachaPlusDatabase.java:203-205 | `ORDER BY id DESC` over a table in ascending id order is the table reversed |
| Registry.NewestFirstDescending | src/main/java/com/github/tunagohan/gachaplus/GachaPlusDatabase.java:203-205 | the listing is in strictly descending id order |
| Registry.NewestFirstPermutes | src/main/java/com/github/tunagohan/gachaplus/GachaPlusDatabase.java:203-205 | the listing holds every row exactly once (same multiset) |
| Database.GachaDatabase.constructor | src/main/java/com/github/tunagohan/gachaplus/GachaPlusDatabase.java:29-31 | a new database object over a table has an empty cache and expiry 0 |
| Database.GachaDatabase.Initialize | src/main/java/com/github/tunagohan/gachaplus/GachaPlusDatabase.java:146-177 | `initialize()` ends in the state of one refresh |
| Database.GachaDatabase.Finalize | src/main/java/com/github/tunagohan/gachaplus/GachaPlusDatabase.java:133-141 | `finalize()` empties the cache and sets the expiry to now, the table untouched |
| Database.GachaDatabase.RefreshCache | src/main/java/com/github/tunagohan/gachaplus/GachaPlusDatabase.java:385-409 | the loop rebuilds the key list from every row and moves the expiry; on failure it returns false with nothing changed |
| Database.GachaDatabase.IsGachaClearing | src/main/java/com/github/tunagohan/gachaplus/GachaPlusDatabase.java:358-379 | `isGacha(loc, cacheClear)` refreshes only when asked, then answers key membership; without `cacheClear` nothing changes |
| Database.GachaDatabase.IsGacha | src/main/java/com/github/tunagohan/gachaplus/GachaPlusDatabase.java:339-350 | `isGacha(loc)` passes `expireCache > now` as `cacheClear` |
| Database.GachaDatabase.GetGacha | src/main/java/com/github/tunagohan/gachaplus/GachaPlusDatabase.java:261-278 | the id of a row with that name, or null exactly when no row has it or the query fails |
| Database.GachaDatabase.GetGachaPrice | src/main/java/com/github/tunagohan/gachaplus/GachaPlusDatabase.java:502-519 | the price of the last row with that name, or null |
| Database.GachaDatabase.GetGachaChest | src/main/java/com/github/tunagohan/gachaplus/GachaPlusDatabase.java:285-332 | the chest of the row whose sign is there, if that block is a chest; otherwise null, or the null-unboxing failure when no row matched |
| Database.GachaDatabase.GetOrCreateGacha | src/main/java/com/github/tunagohan/gachaplus/GachaPlusDatabase.java:422-465 | ends in the state and result of get-or-create, keeping the table well formed |
| Database.GachaDatabase.UpdateGachaChest | src/main/java/com/github/tunagohan/gachaplus/GachaPlusDatabase.java:475-500 | ends in the state and result of the chest bind, keeping the table well formed |
| Database.GachaDatabase.DeleteGacha | src/main/java/com/github/tunagohan/gachaplus/GachaPlusDatabase.java:239-254 | ends in the state and result of the delete, keeping the table well formed |
| Database.GachaDatabase.List | src/main/java/com/github/tunagohan/gachaplus/GachaPlusDatabase.java:188-232 | the entries are the rows newest first, or none when the query fails |
| Utility.PunchTracker.constructor | src/main/java/com/github/tunagohan/gachaplus/GachaPlusUtility.java:45-50 | no player carries a pending bind at start |
| Utility.PunchTracker.IsInPunch | src/main/java/com/github/tunagohan/gachaplus/GachaPlusUtility.java:45-50 | `isInPunch`: the player carries this plugin's entry; SetPunch and RemovePunch state how it changes |
| Utility.PunchTracker.RemovePunch | src/main/java/com/github/tunagohan/gachaplus/GachaPlusUtility.java:80-82 | afterwards the player is not in punch and has no name; every other player keeps theirs |
| Utility.PunchTracker.SetPunch | src/main/java/com/github/tunagohan/gachaplus/GachaPlusUtility.java:70-73 | the last call wins: the player's one pending name is the new one; every other player keeps theirs |
| Utility.OnlineNamed | src/main/java/com/github/tunagohan/gachaplus/GachaPlusUtility.java:110-114 | the online player with that name, or null exactly when nobody online has it |
| Utility.GetTarget | src/main/java/com/github/tunagohan/gachaplus/GachaPlusUtility.java:107-154 | a plain name gives at most that one player; `@a` everyone online; `@s` a player sender; `@p` the nearest player for a player or command block sender; `@r` the player at the drawn index, failing when nobody is online; any other `@` selector nothing |
| Handlers.BeforeFinalTerminator | src/main/java/com/github/tunagohan/gachaplus/GachaPlusListener.java:79-80 | the `$` anchor may match before one final line terminator: the text before it is a prefix of the name |
| Handlers.IsHeader | src/main/java/com/github/tunagohan/gachaplus/GachaPlusListener.java:57 | `toLowerCase().equals("[gacha]")`: seven characters that lower-case to `[gacha]` |
| Handlers.ValidName | src/main/java/com/github/tunagohan/gachaplus/GachaPlusListener.java:79-80 | `^[0-9a-zA-Z_]+$` with `find()`; ValidNameSpec states which names it accepts |
| Handlers.ValidNameSpec | src/main/java/com/github/tunagohan/gachaplus/GachaPlusListener.java:79-80 | a name is valid exactly when it is a non-empty run of word characters followed by nothing or by one line terminator (`\r\n` counting as one) |
| Handlers.ValidNameExamples | src/main/java/com/github/tunagohan/gachaplus/GachaPlusListener.java:79-80 | `^[0-9a-zA-Z_]+$` with `find()` accepts `gacha_01`, `abc\n` and `abc\r\n`, and rejects the empty name, `a-b`, `\n` and `abc\n\n` |
| Handlers.RegisterWritesOnlyWhenRegistered | src/main/java/com/github/tunagohan/gachaplus/GachaPlusListener.java:53-99 | without the header or the permission nothing changes; only a registration writes to the table; registration happens exactly when the header and permission are there, the sign is not cached, the price parses, the name is valid and get-or-create returns an id |
| Handlers.Register | src/main/java/com/github/tunagohan/gachaplus/GachaPlusListener.java:53-99 | `onSignChange`: header, permission, cache test, price parse, name test, then get-or-create; the four lemmas below state its outcomes |
| Handlers.SignLines | src/main/java/com/github/tunagohan/gachaplus/GachaPlusListener.java:92-95 | the four lines a registered sign is rewritten to (prefix and display name, prefix and name, the third line, the formatted price); Listener.GachaListener.OnSignChange states that they are written exactly on registration |
| Handlers.RegisteredNamesOneRow | src/main/java/com/github/tunagohan/gachaplus/GachaPlusListener.java:74-95 | a registered sign had a valid name and an int price, and exactly one row carries its name, with the returned id |
| Handlers.RegisterNewName | src/main/java/com/github/tunagohan/gachaplus/GachaPlusListener.java:87-95 | a new name appends one row: this sign, the parsed price, the unbound chest (0,0,0) of the sign's world, and the sign is then a known gacha sign |
| Handlers.RegisterExistingName | src/main/java/com/github/tunagohan/gachaplus/GachaPlusListener.java:87-95 | a sign repeating an existing name is rewritten with that name's id, but no row is added and its location stays unregistered |
| Handlers.PurchaseOrder | src/main/java/com/github/tunagohan/gachaplus/GachaPlusListener.java:138-177 | no charge unless the price is known and covered and the withdrawal succeeded; the charge is exactly the row's price; the ticket is taken only once a chest resolved; the inventory grows only by the drawn item; the table never changes |
| Handlers.Sell | src/main/java/com/github/tunagohan/gachaplus/GachaPlusListener.java:138-177 | `signProc` after the cache test: price lookup, funds, withdrawal, then the draw; PurchaseOrder, BuyAfterPayment and PurchaseAtBoundSign state it |
| Handlers.Buy | src/main/java/com/github/tunagohan/gachaplus/GachaPlusListener.java:124-183 | `signProc`: the cache test, then the sale; PurchaseOrder, PurchaseDelivers, PurchaseAtBoundSign and RegisterBindBuy state it |
| Handlers.Draw | src/main/java/com/github/tunagohan/gachaplus/GachaPlusListener.java:157-177 | the chest lookup, the ticket and the slot delivery; DrawFromChest and PurchaseWithoutChestKeepsPayment state it |
| Handlers.PurchaseDelivers | src/main/java/com/github/tunagohan/gachaplus/GachaPlusListener.java:157-177 | what is delivered is slot `pick` of the chest bound to the clicked sign's row, in the sign's world |
| Handlers.RegisteredSignResolves | src/main/java/com/github/tunagohan/gachaplus/GachaPlusListener.java:130-139 | with the cache in step, a registered sign passes the cache test and yields its row's price and chest |
| Handlers.BuyAfterPayment | src/main/java/com/github/tunagohan/gachaplus/GachaPlusListener.java:132-156 | past the cache, price, funds and withdrawal tests, the purchase is the draw with the price charged |
| Handlers.DrawFromChest | src/main/java/com/github/tunagohan/gachaplus/GachaPlusListener.java:157-177 | from a resolved chest the draw takes one ticket and delivers slot `pick` when it holds an item |
| Handlers.PurchaseWithoutChestKeepsPayment | src/main/java/com/github/tunagohan/gachaplus/GachaPlusListener.java:151-164 | when the bound chest is not a chest block, the price is taken and nothing is given |
| Handlers.PurchaseAtBoundSign | src/main/java/com/github/tunagohan/gachaplus/GachaPlusListener.java:151-177 | at a registered sign with an existing chest, a covered purchase charges the price, takes one ticket and delivers the slot's item if any |
| Handlers.BindConsumesPending | src/main/java/com/github/tunagohan/gachaplus/GachaPlusListener.java:189-221 | the pending bind is consumed on every path, every other player keeps their pending bind and its name, a failed bind leaves the table as it was, the table stays well formed and the cache in step, and the clicked block's world plays no part |
| Handlers.BindChest | src/main/java/com/github/tunagohan/gachaplus/GachaPlusListener.java:189-221 | `chestProc`: consumes the pending name and binds the clicked coordinates to it; BindConsumesPending states it, with UpdateChestOutcome for when the bind is rejected |
| Handlers.StandingSignIgnoredAsWritten | src/main/java/com/github/tunagohan/gachaplus/GachaPlusListener.java:113 | as written, a right click on a standing sign is ignored, where the intended routing sends it to the purchase |
| Handlers.RouteAsWritten | src/main/java/com/github/tunagohan/gachaplus/GachaPlusListener.java:107-118 | the routing as written: right clicks on wall signs go to the purchase, on chests to the bind, all else (standing signs included) is ignored |
| Handlers.Route | src/main/java/com/github/tunagohan/gachaplus/GachaPlusListener.java:107-118 | the corrected routing, with standing signs also going to the purchase; RouteSpec states it |
| Handlers.RouteSpec | src/main/java/com/github/tunagohan/gachaplus/GachaPlusListener.java:107-118 | right clicks on signs go to the purchase and on chests to the bind, exactly; the written routing agrees everywhere except on standing signs |
| Listener.GachaListener.OnSignChange | src/main/java/com/github/tunagohan/gachaplus/GachaPlusListener.java:53-100 | ends in `Register`'s state; cancels exactly on already registered, bad name or failed create; rewrites the four lines only on registration |
| Listener.GachaListener.SignProc | src/main/java/com/github/tunagohan/gachaplus/GachaPlusListener.java:124-183 | the database ends in the state of the cache test, the outcome and buyer are `Sell` of that state, and the event is cancelled exactly when the sign is a cached gacha sign |
| Listener.GachaListener.Dispense | src/main/java/com/github/tunagohan/gachaplus/GachaPlusListener.java:157-177 | the steps after the withdrawal end in `Draw`'s outcome and buyer |
| Listener.GachaListener.ChestProc | src/main/java/com/github/tunagohan/gachaplus/GachaPlusListener.java:189-221 | ends in `BindChest`'s state; cancels exactly when a bind was pending |
| Listener.GachaListener.OnPlayerInteract | src/main/java/com/github/tunagohan/gachaplus/GachaPlusListener.java:107-118 | performs the corrected routing `Route`: an ignored click changes nothing; a right click on a wall or standing sign is the purchase with the bind store untouched, cancelling the event exactly when the sign is a cached gacha sign; a chest click is the bind with the buyer untouched, cancelling the event exactly when a bind was pending (as written, line 113 ignores standing signs; see "## Left out") |
| Command.ModifyOutcome | src/main/java/com/github/tunagohan/gachaplus/GachaPlusCommand.java:79-96 | `modify` is false exactly on a wrong argument count or a non-player sender; an unknown name leaves every pending bind; a known name becomes the sender's pending bind and nobody else's changes |
| Command.ModifyResult | src/main/java/com/github/tunagohan/gachaplus/GachaPlusCommand.java:79-96 | `modify`'s flag, pending binds and messages; ModifyOutcome states them |
| Command.DeleteOutcome | src/main/java/com/github/tunagohan/gachaplus/GachaPlusCommand.java:102-113 | `delete` is true exactly with two arguments and an executed DELETE, then no row of that name remains and the table stays well formed; otherwise nothing changes |
| Command.DeleteResult | src/main/java/com/github/tunagohan/gachaplus/GachaPlusCommand.java:102-113 | `delete`'s flag, state and messages; DeleteOutcome states them |
| Command.GachaCommand.constructor | src/main/java/com/github/tunagohan/gachaplus/GachaPlusCommand.java:24-30 | a new command object holds no sender and no arguments |
| Command.GachaCommand.Initialize | src/main/java/com/github/tunagohan/gachaplus/GachaPlusCommand.java:37-44 | stores the sender and arguments |
| Command.GachaCommand.Finalize | src/main/java/com/github/tunagohan/gachaplus/GachaPlusCommand.java:49-56 | clears the sender and arguments |
| Command.GachaCommand.List | src/main/java/com/github/tunagohan/gachaplus/GachaPlusCommand.java:62-73 | always true; the messages list every row newest first, or say there is none |
| Command.GachaCommand.Modify | src/main/java/com/github/tunagohan/gachaplus/GachaPlusCommand.java:79-96 | ends in `ModifyResult`'s flag, pending binds and messages |
| Command.GachaCommand.Delete | src/main/java/com/github/tunagohan/gachaplus/GachaPlusCommand.java:102-113 | ends in `DeleteResult`'s flag, state and messages, keeping the table well formed |
| Command.GachaCommand.Reload | src/main/java/com/github/tunagohan/gachaplus/GachaPlusCommand.java:119-123 | always true, with the confirmation |
| Command.GachaCommand.Enable | src/main/java/com/github/tunagohan/gachaplus/GachaPlusCommand.java:129-133 | always true, with the confirmation |
| Command.GachaCommand.Disable | src/main/java/com/github/tunagohan/gachaplus/GachaPlusCommand.java:139-143 | always true, with the confirmation |
| Plugin.DecisionTable | src/main/java/com/github/tunagohan/gachaplus/GachaPlus.java:95-147 | another command or no arguments dispatches nothing; an unknown subcommand is the only usage case; `list`, `modify` and `delete` run exactly with their permission, `enable`, `reload` and `disable` exactly for an operator, and a known subcommand is denied exactly when the sender lacks that |
| Plugin.Decide | src/main/java/com/github/tunagohan/gachaplus/GachaPlus.java:95-147 | the branch `onCommand` takes; DecisionTable states it |
| Plugin.GachaPlus.constructor | src/main/java/com/github/tunagohan/gachaplus/GachaPlus.java:66-77 | `onEnable` creates and initializes the database, then the listener and command sharing it and one empty bind store |
| Plugin.GachaPlus.OnCommand | src/main/java/com/github/tunagohan/gachaplus/GachaPlus.java:95-154 | the flag and messages follow the decision table; a denied or skipped command changes nothing; a permitted one returns its subcommand's result; the command object is finalized on every path |
| Scenario.RegisterBindBuy | src/main/java/com/github/tunagohan/gachaplus/GachaPlusListener.java:53-221 | a sign registered under a new name, bound by `modify` and a chest punch, sells that chest's slot at the sign's price and takes one ticket |

## Left out

- JDBC and SQLite plumbing (`getCon`, `getStmt`, the `close*` helpers, query timeouts) is not modelled; each statement's success is a flag.
- The DDL and the timestamp columns are not modelled; the table is assumed to satisfy the three unique indexes (`WellFormed`), which the DDL creates.
- Bukkit and Vault are oracles. Balances are integers rather than Vault's `double`, and `economy.has` is modelled as `balance >= price`.
- `java.util.Random` is the parameter `pick`; `GetTarget` and the purchase require it to be in range.
- Utility.GetTarget: the floating-point nearest-player search for `@p` is the parameter `nearest`, and its possible null result is not modelled.
- Utility.OnlineNamed: `Server.getPlayer(name)` is taken as an exact name match, not Bukkit's case-insensitive prefix match.
- Message texts, colour-code translation, `String.format` in `list`, `economy.format` (a parameter), logging, `sendMessage` and `scanf` are left out; messages are abstract values.
- Plugin lifecycle: `onDisable`, `setupEconomy` and the effects of `reload`, `enable` and `disable` on the plugin are left out. Only their constant `true` results are modelled.
- Listener.GachaListener.Dispense: `addItem` is modelled as appending the stack to the inventory, without merging into existing stacks or overflow.
- Listener.GachaListener.Dispense: the held amount is decreased without a floor at 0, as in the code; Bukkit's clearing of an empty stack is not modelled.
- Exceptions inside the `rs.next()` loops, and the `wasNull` and `gachaName == null` branches, are not modelled. The chest columns are `NOT NULL`, and a pending name is never null.
- Metadata that other plugins attach under `gachaplus.chest` is not modelled; the store holds this plugin's entry only.
- An interact event fires once per hand; the model handles one event.
- The `p.getType()` player test and the chest-material test in `chestProc` always hold on the paths `onPlayerInteract` routes there, and are left out.
- Handlers.IsHeader: `toLowerCase` is modelled on ASCII letters only. No other character lower-cases into `[gacha]`, so the test is unchanged.
- Decimal.ParseInt: `Integer.parseInt` is modelled on ASCII digits only; Java also accepts other Unicode decimal digits.
- Concurrency: none is implemented, and events are handled one at a time.
- Listener.GachaListener.OnPlayerInteract: performs the corrected routing `Handlers.Route`, so a right click on a standing sign runs the purchase. As written (line 113), such a click is ignored; `Handlers.RouteAsWritten` models that, and `Handlers.RouteSpec` proves the two agree on every other block.
- Registry.LastNamed, Registry.Clash, Registry.Without: names and world names are compared as exact strings. The DDL declares `gacha_name` and `world_name` as `STRING`, which SQLite gives NUMERIC affinity, so numeric-looking text such as `007` is stored and compared as the number 7. The model therefore does not capture that `7` finds, clashes with and deletes the row of `007`, nor that a world named `007` reads back as `7`, so that its signs' cache keys never match.

## Findings

| source | as written | input that shows it | evidently intended | confidence | as-written member | corrected member |
|---|---|---|---|---|---|---|
| src/main/java/com/github/tunagohan/gachaplus/GachaPlusListener.java:113 | `data instanceof Sign` tests block data against the imported block-state interface `org.bukkit.block.Sign`, which no block data implements, so only wall signs reach `signProc` | a right click on a registered standing (post) sign: `RouteAsWritten(RightClickBlock, StandingSign(lines)) == Ignored`, so no purchase happens | the block-data type `org.bukkit.block.data.type.Sign`, so that a click on any sign goes to the purchase | not executed; high from the imports at lines 10-12 | Handlers.RouteAsWritten, Handlers.StandingSignIgnoredAsWritten | Handlers.Route, Handlers.RouteSpec (performed by Listener.GachaListener.OnPlayerInteract, as "## Left out" records) |

=== FILE: command.dfy ===
/** `GachaPlusCommand`: the subcommands of `/gachaplus`. `initialize` stores
    the sender and the arguments of the current command, `finalize` clears
    them, and the subcommands read them. Messages sent to the sender are
    returned as a list, in the order they are sent. */
module Command {
  import opened Common
  import opened Registry
  import opened Database
  import opened Utility

  /** A message sent to the command sender (the text itself is not
      modelled). */
  datatype Message =
    | RecordNotFound           // `list` on an empty table
    | Entry(listing: Listing)  // one `list` line
    | NameNotFound(name: string)
    | PunchPrompt(name: string) // "Please punching(right click) a chest …"
    | DeletedName(name: string)
    | Reloaded
    | Enabled
    | Disabled

  /** The messages of `list()`: "Record not found." for an empty result,
      otherwise one line per entry in the order given. */
  function ListMessages(entries: seq<Listing>): seq<Message>
  {
    if entries == [] then [RecordNotFound] else seq(|entries|, k requires 0 <= k < |entries| => Entry(entries[k]))
  }

  /** `modify()` on the table and the pending binds: the return flag, the
      pending binds afterwards and the messages. `ok` is the outcome of the
      name lookup. */
  function ModifyResult(rows: seq<Row>, pending: map<Player, string>, sender: Sender, args: seq<string>,
                        ok: bool): (bool, map<Player, string>, seq<Message>)
  {
    if |args| != 2 || !sender.kind.PlayerSender? then (false, pending, [])
    else
      var name := args[1];
      var id := if ok then IdOf(rows, name) else None;
      if id.None? then (true, pending, [NameNotFound(name)])
      else (true, pending[sender.kind.player := name], [PunchPrompt(name)])
  }

  /** `modify` fails (false) exactly on a wrong argument count or a sender
      that is not a player; an unknown name leaves every pending bind as it
      was; a known name becomes the sender's pending bind, replacing any
      earlier one, and nobody else's changes. */
  lemma ModifyOutcome(rows: seq<Row>, pending: map<Player, string>, sender: Sender, args: seq<string>, ok: bool)
    ensures var (flag, pending', msgs) := ModifyResult(rows, pending, sender, args, ok);
            (!flag <==> |args| != 2 || !sender.kind.PlayerSender?) &&
            (flag && (!ok || forall i :: 0 <= i < |rows| ==> rows[i].name != args[1]) ==>
               pending' == pending && msgs == [NameNotFound(args[1])]) &&
            (flag && ok && (exists i :: 0 <= i < |rows| && rows[i].name == args[1]) ==>
               pending'[sender.kind.player] == args[1] && msgs == [PunchPrompt(args[1])] &&
               forall q :: q != sender.kind.player ==> (q in pending' <==> q in pending) &&
                                                       (q in pending ==> pending'[q] == pending[q]))
  {
    if |args| == 2 && ok && exists i :: 0 <= i < |rows| && rows[i].name == args[1] {
      assert LastNamed(rows, args[1]).Some?;
    }
  }

  /** `delete()`: false on a wrong argument count; otherwise what
      `deleteGacha` returns, with a confirmation on success. */
  function DeleteResult(s: DbState, args: seq<string>, now: int, ttl: i32, deleteOk: bool,
                        refreshOk: bool): (bool, DbState, seq<Message>)
  {
    if |args| != 2 then (false, s, [])
    else
      var (ok, t) := Delete(s, args[1], now, ttl, deleteOk, refreshOk);
      (ok, t, if ok then [DeletedName(args[1])] else [])
  }

  /** A successful `delete` leaves no row of that name, whether or not one
      existed; a failed one changes nothing. */
  lemma DeleteOutcome(s: DbState, args: seq<string>, now: int, ttl: i32, deleteOk: bool, refreshOk: bool)
    requires WellFormed(s.rows, s.nextId)
    ensures var (flag, t, msgs) := DeleteResult(s, args, now, ttl, deleteOk, refreshOk);
            (flag <==> |args| == 2 && deleteOk) &&
            (!flag ==> t == s && msgs == []) &&
            (flag ==> msgs == [DeletedName(args[1])] && WellFormed(t.rows, t.nextId) &&
                      (forall r :: r in t.rows <==> r in s.rows && r.name != args[1]))
  {
    if |args| == 2 && deleteOk {
      DeleteEffect(s, args[1], now, ttl, refreshOk);
    }
  }

  class GachaCommand {
    const db: GachaDatabase
    const punch: PunchTracker
    var sender: Option<Sender>
    var args: Option<seq<string>>

    ghost predicate Valid()
      reads this, db
    {
      db.Valid()
    }

    constructor (db: GachaDatabase, punch: PunchTracker)
      requires db.Valid()
      ensures Valid() && this.db == db && this.punch == punch
      ensures sender.None? && args.None?
    {
      this.db := db;
      this.punch := punch;
      sender := None;
      args := None;
    }

    /** `initialize(sender, args)` */
    method Initialize(sender: Sender, args: seq<string>)
      modifies this
      ensures this.sender == Some(sender) && this.args == Some(args)
    {
      this.sender := Some(sender);
      this.args := Some(args);
    }

    /** `finalize()` */
    method Finalize()
      modifies this
      ensures sender.None? && args.None?
    {
      sender := None;
      args := None;
    }

    /** `list()`: always true; the messages list every row newest first,
        or say that there is none. */
    method List(ok: bool) returns (flag: bool, msgs: seq<Message>)
      requires sender.Some?
      ensures flag
      ensures msgs == ListMessages(if ok then Listings(db.rows) else [])
    {
      var entries := db.List(ok);
      if |entries| <= 0 {
        return true, [RecordNotFound];
      }
      msgs := [];
      var i := 0;
      while i < |entries|
        invariant 0 <= i <= |entries|
        invariant |msgs| == i && forall k :: 0 <= k < i ==> msgs[k] == Entry(entries[k])
      {
        msgs := msgs + [Entry(entries[i])];
        i := i + 1;
      }
      return true, msgs;
    }

    /** `modify()`: asks the sending player to punch the chest for the named
        gacha. */
    method Modify(ok: bool) returns (flag: bool, msgs: seq<Message>)
      requires sender.Some? && args.Some?
      modifies punch
      ensures (flag, punch.pending, msgs) == ModifyResult(db.rows, old(punch.pending), sender.value, args.value, ok)
    {
      if |args.value| != 2 {
        return false, [];
      }
      if !sender.value.kind.PlayerSender? {
        return false, [];
      }
      var name := args.value[1];
      var id := db.GetGacha(name, ok);
      if id.None? {
        return true, [NameNotFound(name)];
      }
      punch.SetPunch(sender.value.kind.player, name);
      return true, [PunchPrompt(name)];
    }

    /** `delete()` */
    method Delete(now: int, deleteOk: bool, refreshOk: bool) returns (flag: bool, msgs: seq<Message>)
      requires Valid() && args.Some?
      modifies db
      ensures Valid()
      ensures (flag, db.State(), msgs) == DeleteResult(old(db.State()), args.value, now, db.expireSeconds, deleteOk, refreshOk)
    {
      if |args.value| != 2 {
        return false, [];
      }
      var name := args.value[1];
      var ok := db.DeleteGacha(name, now, deleteOk, refreshOk);
      if ok {
        return true, [DeletedName(name)];
      }
      return false, [];
    }

    /** `reload()`, `enable()` and `disable()` always return true; what they
        do to the plugin's lifecycle is not part of this model. */
    method Reload() returns (flag: bool, msgs: seq<Message>)
      ensures flag && msgs == [Reloaded]
    {
      return true, [Reloaded];
    }

    method Enable() returns (flag: bool, msgs: seq<Message>)
      ensures flag && msgs == [Enabled]
    {
      return true, [Enabled];
    }

    method Disable() returns (flag: bool, msgs: seq<Message>)
      ensures flag && msgs == [Disabled]
    {
      return true, [Disabled];
    }
  }
}

=== FILE: common.dfy ===
/** Values shared by every part of the model: the Option wrapper used for
    Java's nullable returns, 32-bit integers, block locations and the few
    host-server entities (players, command senders, item stacks) the plugin
    talks to. */
module Common {

  /** A nullable Java reference: `None` stands for `null`. */
  datatype Option<+T> = None | Some(value: T)

  /** Java `int`. */
  type i32 = x: int | -0x8000_0000 <= x < 0x8000_0000

  predicate IsInt32(x: int) { -0x8000_0000 <= x < 0x8000_0000 }

  /** Two's-complement wrap-around of a Java `int` expression such as `a * 1000`. */
  function Wrap32(x: int): (r: i32)
    ensures IsInt32(x) ==> r == x
    ensures (r - x) % 0x1_0000_0000 == 0
  {
    (x + 0x8000_0000) % 0x1_0000_0000 - 0x8000_0000
  }

  /** A block location: world name and block coordinates. */
  datatype Location = Location(world: string, x: i32, y: i32, z: i32)

  /** An online player, identified by name. */
  datatype Player = Player(name: string)

  /** An item stack; `clone()` of a stack is the same value. */
  datatype ItemStack = ItemStack(material: string, amount: int)

  /** What kind of object issued a command. */
  datatype SenderKind = PlayerSender(player: Player) | BlockSender | ConsoleSender

  /** A command sender with its permission nodes and operator flag. */
  datatype Sender = Sender(kind: SenderKind, perms: set<string>, op: bool)
}

=== FILE: database.dfy ===
/** `GachaPlusDatabase`: the registry object. It owns the `gacha` table, the
    AUTOINCREMENT counter and the in-memory sign cache with its expiry, and
    performs each operation of module Registry step by step; every method
    is proved to leave the state its specification function describes.
    Each SQL statement takes a flag saying whether storage executed it
    (false: it threw `SQLException`); `now` is `System.currentTimeMillis()`. */
module Database {
  import opened Common
  import opened Keys
  import opened Registry

  class GachaDatabase {
    var rows: seq<Row>
    var nextId: int
    var signCache: seq<string>
    var expireCache: int
    /** The configured `cache-expire-seconds`. */
    const expireSeconds: i32

    ghost predicate Valid()
      reads this
    {
      WellFormed(rows, nextId)
    }

    function State(): DbState
      reads this
    {
      DbState(rows, nextId, signCache, expireCache)
    }

    /** A database object over an existing table, before any refresh: the
        cache list is empty and the expiry is Java's default 0. */
    constructor (table: seq<Row>, next: int, expireSeconds: i32)
      requires WellFormed(table, next)
      ensures Valid() && this.expireSeconds == expireSeconds
      ensures State() == DbState(table, next, [], 0)
    {
      rows := table;
      nextId := next;
      signCache := [];
      expireCache := 0;
      this.expireSeconds := expireSeconds;
    }

    /** `initialize()`: the DDL (not part of this model) and then the first
        `refreshCache()`. */
    method Initialize(now: int, ok: bool) returns (r: bool)
      modifies this
      ensures r == ok && Valid() == old(Valid())
      ensures State() == Refreshed(old(State()), now, expireSeconds, ok)
    {
      r := RefreshCache(now, ok);
    }

    /** `finalize()`: the connection is closed (not modelled), the cache is
        emptied and expires now. */
    method Finalize(now: int)
      modifies this
      ensures Valid() == old(Valid())
      ensures State() == old(State()).(cache := [], expire := now)
    {
      signCache := [];
      expireCache := now;
    }

    /** `refreshCache()`: the key list is cleared and refilled from the
        query's rows, one key per row, then the expiry is moved forward. */
    method RefreshCache(now: int, ok: bool) returns (r: bool)
      modifies this
      ensures r == ok && Valid() == old(Valid())
      ensures State() == Refreshed(old(State()), now, expireSeconds, ok)
      ensures !ok ==> State() == old(State())
      ensures ok ==> rows == old(rows) && Synced(State()) && expireCache == now + Wrap32(expireSeconds * 1000)
    {
      if !ok {
        return false;
      }
      signCache := [];
      var i := 0;
      while i < |rows|
        invariant 0 <= i <= |rows|
        invariant rows == old(rows) && nextId == old(nextId) && expireCache == old(expireCache)
        invariant |signCache| == i && forall k :: 0 <= k < i ==> signCache[k] == CacheKey(rows[k].Sign())
      {
        signCache := signCache + [CacheKey(rows[i].Sign())];
        i := i + 1;
      }
      assert signCache == SignKeys(rows);
      expireCache := now + Wrap32(expireSeconds * 1000);
      return true;
    }

    /** `isGacha(loc, cacheClear)`: refresh when asked, then look the key
        up in the cached list; without `cacheClear` nothing is read from
        storage and nothing changes. */
    method IsGachaClearing(loc: Location, cacheClear: bool, now: int, refreshOk: bool) returns (b: bool)
      modifies this
      ensures Valid() == old(Valid())
      ensures State() == CheckedWith(old(State()), cacheClear, now, expireSeconds, refreshOk)
      ensures b == Cached(State(), loc)
    {
      if cacheClear {
        var refreshed := RefreshCache(now, refreshOk);
      }
      b := CacheKey(loc) in signCache;
    }

    /** `isGacha(loc)`: as written, the refresh is requested when
        `expireCache > now`. */
    method IsGacha(loc: Location, now: int, refreshOk: bool) returns (b: bool)
      modifies this
      ensures Valid() == old(Valid())
      ensures State() == Checked(old(State()), now, expireSeconds, refreshOk)
      ensures b == Cached(State(), loc)
    {
      var cacheClear := false;
      if expireCache > now {
        cacheClear := true;
      }
      b := IsGachaClearing(loc, cacheClear, now, refreshOk);
    }

    /** `getGacha(name)`: the id of the row with that name, or null when
        there is none or the query fails. */
    method GetGacha(name: string, ok: bool) returns (id: Option<int>)
      ensures id == (if ok then IdOf(rows, name) else None)
      ensures id.Some? ==> exists i :: 0 <= i < |rows| && rows[i].name == name && rows[i].id == id.value
      ensures ok && id.None? ==> forall i :: 0 <= i < |rows| ==> rows[i].name != name
    {
      id := None;
      if !ok {
        return;
      }
      var i := 0;
      while i < |rows|
        invariant 0 <= i <= |rows|
        invariant id == IdOf(rows[..i], name)
      {
        assert rows[..i + 1][..i] == rows[..i];
        if rows[i].name == name {
          id := Some(rows[i].id);
        }
        i := i + 1;
      }
      assert rows[..i] == rows;
    }

    /** `getGachaPrice(name)`: the price of the row with that name, or null
        when there is none or the query fails. */
    method GetGachaPrice(name: string, ok: bool) returns (price: Option<i32>)
      ensures price == (if ok then PriceOf(rows, name) else None)
      ensures price.Some? ==> exists i :: 0 <= i < |rows| && rows[i].name == name && rows[i].price == price.value
    {
      price := None;
      if !ok {
        return;
      }
      var i := 0;
      while i < |rows|
        invariant 0 <= i <= |rows|
        invariant price == PriceOf(rows[..i], name)
      {
        assert rows[..i + 1][..i] == rows[..i];
        if rows[i].name == name {
          price := Some(rows[i].price);
        }
        i := i + 1;
      }
      assert rows[..i] == rows;
    }

    /** `getGachaChest(signLoc)`: the stored chest coordinates of the row
        whose sign is at `signLoc`, taken in that row's world, provided the
        block there is a chest (`chests` is the set of chest blocks of the
        server). The `wasNull` tests never fire because the chest columns
        are NOT NULL. */
    method GetGachaChest(signLoc: Location, ok: bool, chests: set<Location>) returns (r: ChestLookup)
      ensures r == ChestOf(rows, signLoc, chests, ok)
    {
      if !ok {
        return QueryFailed;
      }
      var found: Option<Location> := None;
      var i := 0;
      while i < |rows|
        invariant 0 <= i <= |rows|
        invariant found == (match LastAtSign(rows[..i], signLoc)
                            case None => None
                            case Some(k) => Some(rows[k].Chest()))
      {
        assert rows[..i + 1][..i] == rows[..i];
        if rows[i].Sign() == signLoc {
          found := Some(rows[i].Chest());
        }
        i := i + 1;
      }
      assert rows[..i] == rows;
      if found.None? {
        return NoRow;
      }
      if found.value !in chests {
        return NotAChest;
      }
      return ChestFound(found.value);
    }

    /** `getGacha(name, displayName, price, world, x, y, z)`. */
    method GetOrCreateGacha(name: string, displayName: string, price: i32, sign: Location,
                            now: int, lookupOk: bool, insertOk: bool, refreshOk: bool) returns (id: Option<int>)
      requires Valid()
      modifies this
      ensures Valid()
      ensures (id, State()) == Create(old(State()), name, displayName, price, sign, now, expireSeconds,
                                      lookupOk, insertOk, refreshOk)
    {
      CreatePreservesWellFormed(State(), name, displayName, price, sign, now, expireSeconds,
                                lookupOk, insertOk, refreshOk);
      id := GetGacha(name, lookupOk);
      if id.Some? {
        return;
      }
      var row := NewRow(nextId, name, displayName, price, sign);
      if !insertOk || !Admits(rows, row) {
        return None;
      }
      ghost var added := State().(rows := rows + [row], nextId := nextId + 1);
      rows := rows + [row];
      id := Some(nextId);
      nextId := nextId + 1;
      assert State() == added;
      var refreshed := RefreshCache(now, refreshOk);
    }

    /** `updateGachaChest(name, x, y, z)`. */
    method UpdateGachaChest(name: string, x: i32, y: i32, z: i32, lookupOk: bool, updateOk: bool) returns (ok: bool)
      requires Valid()
      modifies this
      ensures Valid()
      ensures (ok, State()) == UpdateChest(old(State()), name, x, y, z, lookupOk, updateOk)
    {
      var id := GetGacha(name, lookupOk);
      if id.None? {
        return false;
      }
      if !updateOk || RebindClashes(rows, name, x, y, z) {
        return false;
      }
      UpdateChestPreservesWellFormed(State(), name, x, y, z, lookupOk, updateOk);
      rows := Rebind(rows, name, x, y, z);
      return true;
    }

    /** `deleteGacha(name)`. */
    method DeleteGacha(name: string, now: int, deleteOk: bool, refreshOk: bool) returns (ok: bool)
      requires Valid()
      modifies this
      ensures Valid()
      ensures (ok, State()) == Delete(old(State()), name, now, expireSeconds, deleteOk, refreshOk)
    {
      if !deleteOk {
        return false;
      }
      WithoutWellFormed(rows, nextId, name);
      rows := Without(rows, name);
      var refreshed := RefreshCache(now, refreshOk);
      return true;
    }

    /** `list()`: one entry per row, newest id first; empty when the query
        fails. */
    method List(ok: bool) returns (entries: seq<Listing>)
      ensures entries == if ok then Listings(rows) else []
    {
      entries := [];
      if !ok {
        return;
      }
      var i := |rows|;
      while i > 0
        invariant 0 <= i <= |rows|
        invariant |entries| == |rows| - i
        invariant forall k :: 0 <= k < |entries| ==> entries[k] == Listed(rows[|rows| - 1 - k])
      {
        i := i - 1;
        entries := entries + [Listed(rows[i])];
      }
    }
  }
}

=== FILE: decimal.dfy ===
/** Decimal text of Java integers: `String.valueOf(int)`, used to build the
    sign cache keys, and `Integer.parseInt`, used to read the price line of
    a new sign. */
module Decimal {
  import opened Common

  predicate IsDigit(c: char) { '0' <= c <= '9' }

  predicate AllDigits(s: string) { forall i :: 0 <= i < |s| ==> IsDigit(s[i]) }

  function DigitChar(d: nat): (c: char)
    requires d < 10
    ensures IsDigit(c)
  {
    (d + '0' as int) as char
  }

  function DigitValue(c: char): nat
    requires IsDigit(c)
  {
    c as int - '0' as int
  }

  /** The digits of `n`, most significant first, without leading zeros. */
  function NatToString(n: nat): string
  {
    if n < 10 then [DigitChar(n)] else NatToString(n / 10) + [DigitChar(n % 10)]
  }

  lemma {:induction false} NatToStringDigits(n: nat)
    ensures |NatToString(n)| > 0 && AllDigits(NatToString(n))
  {
    if n >= 10 {
      NatToStringDigits(n / 10);
    }
  }

  /** The value of a string of decimal digits. */
  function DigitsValue(s: string): nat
    requires AllDigits(s)
  {
    if s == [] then 0 else DigitsValue(s[..|s| - 1]) * 10 + DigitValue(s[|s| - 1])
  }

  /** `String.valueOf(n)`: an optional minus sign followed by the digits. */
  function IntToString(n: int): string
  {
    if n < 0 then "-" + NatToString(-n) else NatToString(n)
  }

  /** The printed form is a minus sign exactly for negative numbers, then
      digits; in particular it never contains `_`. */
  lemma IntToStringShape(n: int)
    ensures var s := IntToString(n);
            |s| > 0 && '_' !in s && (s[0] == '-' <==> n < 0) &&
            (n < 0 ==> AllDigits(s[1..])) && (0 <= n ==> AllDigits(s))
  {
    var s := IntToString(n);
    if n < 0 {
      NatToStringDigits(-n);
      assert s[1..] == NatToString(-n);
      assert forall i :: 1 <= i < |s| ==> s[i] == s[1..][i - 1];
    } else {
      NatToStringDigits(n);
    }
  }

  /** `Integer.parseInt(s)`: an optional `-` or `+`, then one or more digits,
      whose value must fit in an `int`; anything else throws
      `NumberFormatException`, modelled as `None`. */
  function ParseInt(s: string): (r: Option<i32>)
  {
    if |s| == 0 then None
    else
      var body := if s[0] == '-' || s[0] == '+' then s[1..] else s;
      if |body| == 0 || !AllDigits(body) then None
      else
        var v: int := if s[0] == '-' then 0 - DigitsValue(body) as int else DigitsValue(body);
        if IsInt32(v) then Some(v) else None
  }

  lemma {:induction false} NatToStringRoundTrip(n: nat)
    ensures AllDigits(NatToString(n)) && DigitsValue(NatToString(n)) == n
  {
    NatToStringDigits(n);
    if n >= 10 {
      var s := NatToString(n);
      assert s[..|s| - 1] == NatToString(n / 10);
      NatToStringRoundTrip(n / 10);
    }
  }

  /** Parsing what `String.valueOf` printed gives the number back. */
  lemma ParseIntRoundTrip(n: i32)
    ensures ParseInt(IntToString(n)) == Some(n)
  {
    var s := IntToString(n);
    if n < 0 {
      var m: nat := 0 - n as int;
      var body := NatToString(m);
      NatToStringRoundTrip(m);
      assert s == "-" + body && s[1..] == body;
    } else {
      NatToStringRoundTrip(n);
      assert s == NatToString(n) && IsDigit(s[0]);
    }
  }

  /** Distinct integers print differently, so the printed form identifies
      the number. */
  lemma IntToStringInjective(a: int, b: int)
    requires IntToString(a) == IntToString(b)
    ensures a == b
  {
    var s := IntToString(a);
    IntToStringShape(a);
    IntToStringShape(b);
    if a < 0 {
      assert s[1..] == NatToString(-a) == NatToString(-b);
      NatToStringRoundTrip(-a);
      NatToStringRoundTrip(-b);
    } else {
      NatToStringRoundTrip(a);
      NatToStringRoundTrip(b);
    }
  }

  /** A price line of a minus sign and digits is accepted by
      `Integer.parseInt` whenever its value fits in an `int` (down to
      -2^31, and `-0` reads as 0), so negative prices are not rejected. */
  lemma NegativeAccepted(k: nat)
    requires k <= 0x8000_0000
    ensures ParseInt("-" + NatToString(k)) == Some(-(k as int))
  {
    var s := "-" + NatToString(k);
    NatToStringRoundTrip(k);
    assert s[1..] == NatToString(k);
  }
}

=== FILE: handlers.dfy ===
/** The three event handlers of `GachaPlusListener` as functions from the
    state before the event to the outcome and the state after it: sign
    registration (`onSignChange`), purchase (`signProc`) and chest binding
    (`chestProc`), together with the routing of clicks (`onPlayerInteract`).
    The lemmas state the order of the side effects the handlers promise. */
module Handlers {
  import opened Common
  import opened Decimal
  import opened Keys
  import opened Registry

  // ------------------------------------------------------------ sign text

  /** ASCII lower-casing. Java's `toLowerCase` also maps non-ASCII letters,
      but none of them to a character of `[gacha]`, so comparing against
      `[gacha]` comes out the same. */
  function LowerAscii(c: char): char
  {
    if 'A' <= c <= 'Z' then (c as int + 32) as char else c
  }

  /** `line.toLowerCase().equals("[gacha]")` */
  predicate IsHeader(line: string)
  {
    |line| == 7 && forall i :: 0 <= i < 7 ==> LowerAscii(line[i]) == "[gacha]"[i]
  }

  predicate IsWordChar(c: char)
  {
    '0' <= c <= '9' || 'a' <= c <= 'z' || 'A' <= c <= 'Z' || c == '_'
  }

  /** A Java line terminator as the `$` anchor recognises it. */
  predicate IsLineTerminator(c: char)
  {
    c == '\n' || c == '\r' || c == '\U{0085}' || c == '\U{2028}' || c == '\U{2029}'
  }

  /** The text before the one final line terminator (`\r\n` counting as
      one) that the `$` anchor may stand in front of. */
  function BeforeFinalTerminator(s: string): (w: string)
    ensures |w| <= |s| && w == s[..|w|]
  {
    if |s| >= 2 && s[|s| - 2] == '\r' && s[|s| - 1] == '\n' then s[..|s| - 2]
    else if |s| >= 1 && IsLineTerminator(s[|s| - 1]) then s[..|s| - 1]
    else s
  }

  /** `Pattern.compile("^[0-9a-zA-Z_]+$").matcher(name).find()`: one or more
      word characters, then the end of the input or one final line
      terminator. */
  predicate ValidName(name: string)
  {
    var w := BeforeFinalTerminator(name);
    |w| > 0 && forall i :: 0 <= i < |w| ==> IsWordChar(w[i])
  }

  /** What may follow the word characters: nothing, or one line
      terminator, `\r\n` counting as one. */
  predicate FinalTerminator(t: string)
  {
    t == [] || t == "\r\n" || (|t| == 1 && IsLineTerminator(t[0]))
  }

  /** The name test over all inputs: a name is valid exactly when it splits
      into a non-empty run of word characters followed by at most one final
      line terminator. */
  lemma ValidNameSpec(name: string)
    ensures ValidName(name) <==>
            exists k :: 0 < k <= |name| && (forall i :: 0 <= i < k ==> IsWordChar(name[i])) &&
                        FinalTerminator(name[k..])
  {
    var w := BeforeFinalTerminator(name);
    if ValidName(name) {
      var k := |w|;
      assert name[..k] == w;
      if k == |name| {
        assert name[k..] == [];
      } else if k == |name| - 2 {
        assert name[k..] == "\r\n";
      } else {
        assert name[k..] == [name[|name| - 1]];
      }
    }
    if exists k :: 0 < k <= |name| && (forall i :: 0 <= i < k ==> IsWordChar(name[i])) &&
                   FinalTerminator(name[k..]) {
      var k :| 0 < k <= |name| && (forall i :: 0 <= i < k ==> IsWordChar(name[i])) &&
               FinalTerminator(name[k..]);
      var t := name[k..];
      assert IsWordChar(name[k - 1]);
      if t == [] {
        assert k == |name|;
      } else if t == "\r\n" {
        assert name[|name| - 2] == t[0] && name[|name| - 1] == t[1];
      } else {
        assert name[|name| - 1] == t[0];
      }
      assert w == name[..k];
    }
  }

  /** Examples: the empty name and a name with `-` are rejected, a trailing
      newline is accepted because `$` matches in front of it. */
  lemma ValidNameExamples()
    ensures ValidName("gacha_01") && ValidName("abc\n") && ValidName("abc\r\n")
    ensures !ValidName("") && !ValidName("a-b") && !ValidName("\n") && !ValidName("abc\n\n")
  {
    assert "abc\n\n"[..4] == "abc\n";
    assert !IsWordChar("abc\n"[3]);
    assert !IsWordChar("a-b"[1]);
  }

  /** The four lines a registered sign is rewritten to, before colour-code
      translation: display-name prefix and display name, name prefix and
      name, the configured third line, and the price as the economy formats
      it. */
  function SignLines(line1Prefix: string, line2Prefix: string, line3: string,
                     name: string, displayName: string, priceText: string): (lines: seq<string>)
  {
    [line1Prefix + displayName, line2Prefix + name, line3, priceText]
  }

  // ------------------------------------------------------------ registration

  /** How `onSignChange` ended. */
  datatype Registration =
    | NotHeader           // first line is not `[gacha]`
    | NoPermission        // the player lacks `gachaplus.create`
    | AlreadyRegistered   // the sign's key is in the cache
    | BadPrice            // `Integer.parseInt` threw on the fourth line
    | BadName             // the second line is not a valid name
    | CreateFailed        // get-or-create returned null
    | Registered(id: int)
  {
    /** The event is cancelled. */
    predicate Cancels()
    {
      AlreadyRegistered? || BadName? || CreateFailed?
    }
  }

  /** `onSignChange`: header test, permission test, the cache test with the
      one-argument `isGacha`, the price parse, the name test, then
      get-or-create. `checkOk` is the outcome of the refresh `isGacha` may
      run; `lookupOk`, `insertOk` and `refreshOk` those of get-or-create. */
  function Register(s: DbState, lines: seq<string>, canCreate: bool, at: Location, now: int, ttl: i32,
                    checkOk: bool, lookupOk: bool, insertOk: bool, refreshOk: bool): (Registration, DbState)
    requires |lines| == 4
  {
    if !IsHeader(lines[0]) then (NotHeader, s)
    else if !canCreate then (NoPermission, s)
    else
      var c := Checked(s, now, ttl, checkOk);
      if Cached(c, at) then (AlreadyRegistered, c)
      else match ParseInt(lines[3])
        case None => (BadPrice, c)
        case Some(price) =>
          if !ValidName(lines[1]) then (BadName, c)
          else
            var (id, t) := Create(c, lines[1], lines[2], price, at, now, ttl, lookupOk, insertOk, refreshOk);
            if id.None? then (CreateFailed, t) else (Registered(id.value), t)
  }

  /** Without the header and the permission nothing happens; every outcome
      other than `Registered` leaves the table alone (only the cache test
      may have refreshed the cache). */
  lemma RegisterWritesOnlyWhenRegistered(s: DbState, lines: seq<string>, canCreate: bool, at: Location, now: int,
                                         ttl: i32, checkOk: bool, lookupOk: bool, insertOk: bool, refreshOk: bool)
    requires |lines| == 4
    ensures var (r, t) := Register(s, lines, canCreate, at, now, ttl, checkOk, lookupOk, insertOk, refreshOk);
            (!IsHeader(lines[0]) ==> r == NotHeader && t == s) &&
            (IsHeader(lines[0]) && !canCreate ==> r == NoPermission && t == s) &&
            (!r.Registered? ==> t.rows == s.rows && t.nextId == s.nextId) &&
            (r.Registered? <==>
               IsHeader(lines[0]) && canCreate && !Cached(Checked(s, now, ttl, checkOk), at) &&
               ParseInt(lines[3]).Some? && ValidName(lines[1]) &&
               Create(Checked(s, now, ttl, checkOk), lines[1], lines[2], ParseInt(lines[3]).value, at, now, ttl,
                      lookupOk, insertOk, refreshOk).0.Some?)
  {
  }

  /** A registered sign names a row: exactly one row carries the sign's
      name, with the returned id; the price line parsed as an `int`. */
  lemma RegisteredNamesOneRow(s: DbState, lines: seq<string>, canCreate: bool, at: Location, now: int,
                              ttl: i32, checkOk: bool, lookupOk: bool, insertOk: bool, refreshOk: bool)
    requires |lines| == 4 && WellFormed(s.rows, s.nextId)
    requires Register(s, lines, canCreate, at, now, ttl, checkOk, lookupOk, insertOk, refreshOk).0.Registered?
    ensures var (r, t) := Register(s, lines, canCreate, at, now, ttl, checkOk, lookupOk, insertOk, refreshOk);
            WellFormed(t.rows, t.nextId) && ValidName(lines[1]) && ParseInt(lines[3]).Some? &&
            exists i :: 0 <= i < |t.rows| && t.rows[i].name == lines[1] && t.rows[i].id == r.id &&
                        forall j :: 0 <= j < |t.rows| && t.rows[j].name == lines[1] ==> j == i
  {
    var c := Checked(s, now, ttl, checkOk);
    var price := ParseInt(lines[3]).value;
    CreatePreservesWellFormed(c, lines[1], lines[2], price, at, now, ttl, lookupOk, insertOk, refreshOk);
    CreateOutcome(c, lines[1], lines[2], price, at, now, ttl, lookupOk, insertOk, refreshOk);
  }

  /** A new name registers the clicked sign: the added row has its sign
      here and the unbound chest (0,0,0) of the same world, and once the
      refresh succeeds the sign is a known gacha sign. */
  lemma RegisterNewName(s: DbState, lines: seq<string>, canCreate: bool, at: Location, now: int,
                        ttl: i32, checkOk: bool, lookupOk: bool, insertOk: bool)
    requires |lines| == 4 && IdOf(s.rows, lines[1]).None?
    requires Register(s, lines, canCreate, at, now, ttl, checkOk, lookupOk, insertOk, true).0.Registered?
    ensures var (r, t) := Register(s, lines, canCreate, at, now, ttl, checkOk, lookupOk, insertOk, true);
            |t.rows| == |s.rows| + 1 && t.rows[|s.rows|].Sign() == at &&
            t.rows[|s.rows|].Chest() == Location(at.world, 0, 0, 0) &&
            t.rows[|s.rows|].name == lines[1] && t.rows[|s.rows|].price == ParseInt(lines[3]).value &&
            t.rows[..|s.rows|] == s.rows && Synced(t) && Cached(t, at)
  {
    var (r, t) := Register(s, lines, canCreate, at, now, ttl, checkOk, lookupOk, insertOk, true);
    var c := Checked(s, now, ttl, checkOk);
    assert t.rows[|s.rows|].Sign() == at;
    RefreshIsExact(c.(rows := c.rows + [t.rows[|s.rows|]], nextId := c.nextId + 1), now, ttl, at);
  }

  /** A sign that repeats an existing name is rewritten as a gacha sign
      although no row is added and its own location stays unregistered: in
      a synced cache it is still not a gacha sign afterwards. */
  lemma RegisterExistingName(s: DbState, lines: seq<string>, at: Location, now: int, ttl: i32,
                             checkOk: bool, insertOk: bool, refreshOk: bool, k: int)
    requires |lines| == 4 && WellFormed(s.rows, s.nextId) && Synced(s)
    requires IsHeader(lines[0]) && ValidName(lines[1]) && ParseInt(lines[3]).Some?
    requires 0 <= k < |s.rows| && s.rows[k].name == lines[1]
    requires forall i :: 0 <= i < |s.rows| ==> s.rows[i].Sign() != at
    ensures var (r, t) := Register(s, lines, true, at, now, ttl, checkOk, true, insertOk, refreshOk);
            r == Registered(s.rows[k].id) && t.rows == s.rows && t.nextId == s.nextId && !Cached(t, at)
  {
    var c := Checked(s, now, ttl, checkOk);
    CachedIffRegistered(s, at);
    if s.expire > now && checkOk {
      RefreshIsExact(s, now, ttl, at);
    }
    assert Synced(c);
    CachedIffRegistered(c, at);
    NamedRowUnique(c.rows, c.nextId, lines[1], k);
  }

  // ---------------------------------------------------------------- purchase

  /** The buying player: Vault balance, amount of the held (ticket) stack,
      and inventory contents in the order items were added. */
  datatype Buyer = Buyer(balance: int, hand: int, inventory: seq<ItemStack>)

  /** How `signProc` ended. */
  datatype Purchase =
    | NotGacha                 // the sign's key is not in the cache
    | PriceMissing             // price lookup returned null
    | InsufficientFunds        // `economy.has` is false
    | WithdrawFailed           // `withdrawPlayer` reported failure
    | NoChest(why: ChestLookup) // `getGachaChest` gave no chest (or threw)
    | EmptySlot                // the drawn slot is empty
    | Delivered(item: ItemStack)
  {
    /** The player was charged the price. */
    predicate Debited()
    {
      NoChest? || EmptySlot? || Delivered?
    }

    /** One ticket was taken from the held stack. */
    predicate TicketUsed()
    {
      EmptySlot? || Delivered?
    }
  }

  /** The chest inventories of the world, by block location, as `getItem`
      sees them (an empty slot is `None`). */
  type Chests = map<Location, seq<Option<ItemStack>>>

  /** Every chest has at least `pick + 1` slots, so `pick` is a value
      `nextInt(size)` can return for any chest. */
  predicate PickFits(chests: Chests, pick: nat)
  {
    forall c :: c in chests ==> pick < |chests[c]|
  }

  /** The part of `signProc` after the payment: chest lookup, one ticket
      taken, slot `pick` read, and a clone of a non-empty slot added to the
      inventory. The chest contents are only read. */
  function Draw(c: DbState, at: Location, paid: Buyer, chests: Chests, pick: nat, chestOk: bool): (Purchase, Buyer)
    requires PickFits(chests, pick)
  {
    match ChestOf(c.rows, at, chests.Keys, chestOk)
    case ChestFound(loc) =>
      var slot := chests[loc][pick];
      var used := paid.(hand := paid.hand - 1);
      if slot.None? then (EmptySlot, used)
      else (Delivered(slot.value), used.(inventory := used.inventory + [slot.value]))
    case other => (NoChest(other), paid)
  }

  /** `signProc` after the cache test has run and left state `c`: the
      cache answer, the price lookup by the sign's second line, the funds
      test, the withdrawal, then the draw. */
  function Sell(c: DbState, at: Location, name: string, b: Buyer, chests: Chests, pick: nat,
                priceOk: bool, withdrawOk: bool, chestOk: bool): (Purchase, Buyer)
    requires PickFits(chests, pick)
  {
    if !Cached(c, at) then (NotGacha, b)
    else
      var price := if priceOk then PriceOf(c.rows, name) else None;
      if price.None? then (PriceMissing, b)
      else if b.balance < price.value then (InsufficientFunds, b)
      else if !withdrawOk then (WithdrawFailed, b)
      else Draw(c, at, b.(balance := b.balance - price.value), chests, pick, chestOk)
  }

  /** `signProc`: the cache test (which may refresh the cache), then the
      sale on the state it leaves. */
  function Buy(s: DbState, at: Location, name: string, b: Buyer, chests: Chests, pick: nat, now: int, ttl: i32,
               checkOk: bool, priceOk: bool, withdrawOk: bool, chestOk: bool): (Purchase, DbState, Buyer)
    requires PickFits(chests, pick)
  {
    var c := Checked(s, now, ttl, checkOk);
    var (r, b') := Sell(c, at, name, b, chests, pick, priceOk, withdrawOk, chestOk);
    (r, c, b')
  }

  /** The effects of a purchase, in order: nothing is charged before the
      price is known and covered and the withdrawal succeeded; the charge
      is exactly the row's price; the ticket is taken only once a chest
      resolved; the inventory grows only by the drawn item. A purchase
      never changes the table. */
  lemma PurchaseOrder(s: DbState, at: Location, name: string, b: Buyer, chests: Chests, pick: nat, now: int,
                      ttl: i32, checkOk: bool, priceOk: bool, withdrawOk: bool, chestOk: bool)
    requires PickFits(chests, pick)
    ensures var (r, t, b') := Buy(s, at, name, b, chests, pick, now, ttl, checkOk, priceOk, withdrawOk, chestOk);
            t.rows == s.rows && t.nextId == s.nextId &&
            (!r.Debited() ==> b' == b) &&
            (r.Debited() ==> priceOk && withdrawOk && PriceOf(s.rows, name).Some? &&
                             b.balance >= PriceOf(s.rows, name).value &&
                             b'.balance == b.balance - PriceOf(s.rows, name).value) &&
            (b'.hand == if r.TicketUsed() then b.hand - 1 else b.hand) &&
            (b'.inventory == if r.Delivered? then b.inventory + [r.item] else b.inventory)
  {
  }

  /** What is delivered is the content of slot `pick` of the chest bound to
      the row whose sign was clicked, and that chest is in the sign's world. */
  lemma PurchaseDelivers(s: DbState, at: Location, name: string, b: Buyer, chests: Chests, pick: nat, now: int,
                         ttl: i32, checkOk: bool, priceOk: bool, withdrawOk: bool, chestOk: bool)
    requires PickFits(chests, pick)
    requires Buy(s, at, name, b, chests, pick, now, ttl, checkOk, priceOk, withdrawOk, chestOk).0.Delivered?
    ensures var r := Buy(s, at, name, b, chests, pick, now, ttl, checkOk, priceOk, withdrawOk, chestOk).0;
            exists k :: 0 <= k < |s.rows| && s.rows[k].Sign() == at && s.rows[k].Chest() in chests &&
                        s.rows[k].Chest().world == at.world && chests[s.rows[k].Chest()][pick] == Some(r.item)
  {
    var c := Checked(s, now, ttl, checkOk);
    ChestOfFound(c.rows, at, chests.Keys);
  }

  /** In a synced cache, the sign of row `k` is a gacha sign whatever the
      cache test does, and the purchase there finds that row's price and
      that row's chest. */
  lemma RegisteredSignResolves(s: DbState, at: Location, now: int, ttl: i32, checkOk: bool, k: int)
    requires WellFormed(s.rows, s.nextId) && Synced(s)
    requires 0 <= k < |s.rows| && s.rows[k].Sign() == at
    ensures var c := Checked(s, now, ttl, checkOk);
            c.rows == s.rows && Synced(c) && Cached(c, at) &&
            PriceOf(c.rows, s.rows[k].name) == Some(s.rows[k].price) && LastAtSign(c.rows, at) == Some(k)
  {
    var c := Checked(s, now, ttl, checkOk);
    if s.expire > now && checkOk {
      RefreshIsExact(s, now, ttl, at);
    }
    CachedIffRegistered(c, at);
    NamedRowUnique(s.rows, s.nextId, s.rows[k].name, k);
    SignRowUnique(s.rows, s.nextId, at, k);
  }

  /** When no chest resolves, the price has been taken and nothing is
      given back: the player is poorer by the price and holds the same
      items. */
  lemma PurchaseWithoutChestKeepsPayment(s: DbState, at: Location, b: Buyer, chests: Chests, pick: nat,
                                         now: int, ttl: i32, checkOk: bool, k: int)
    requires PickFits(chests, pick)
    requires WellFormed(s.rows, s.nextId) && Synced(s)
    requires 0 <= k < |s.rows| && s.rows[k].Sign() == at && s.rows[k].Chest() !in chests
    requires b.balance >= s.rows[k].price
    ensures Buy(s, at, s.rows[k].name, b, chests, pick, now, ttl, checkOk, true, true, true) ==
            (NoChest(NotAChest), Checked(s, now, ttl, checkOk), b.(balance := b.balance - s.rows[k].price))
  {
    RegisteredSignResolves(s, at, now, ttl, checkOk, k);
  }

  /** Once the sign is known and the price covered, a successful
      withdrawal charges the price and the draw decides the rest. */
  lemma BuyAfterPayment(s: DbState, at: Location, name: string, b: Buyer, chests: Chests, pick: nat, now: int,
                        ttl: i32, checkOk: bool, chestOk: bool, price: i32)
    requires PickFits(chests, pick)
    requires Cached(Checked(s, now, ttl, checkOk), at)
    requires PriceOf(Checked(s, now, ttl, checkOk).rows, name) == Some(price) && b.balance >= price
    ensures var c := Checked(s, now, ttl, checkOk);
            var d := Draw(c, at, b.(balance := b.balance - price), chests, pick, chestOk);
            Buy(s, at, name, b, chests, pick, now, ttl, checkOk, true, true, chestOk) == (d.0, c, d.1)
  {
  }

  /** A draw from a resolved chest takes one ticket and delivers the
      content of slot `pick` when it holds an item. */
  lemma DrawFromChest(c: DbState, at: Location, paid: Buyer, chests: Chests, pick: nat, loc: Location)
    requires PickFits(chests, pick)
    requires ChestOf(c.rows, at, chests.Keys, true) == ChestFound(loc)
    ensures loc in chests
    ensures var (r, b') := Draw(c, at, paid, chests, pick, true);
            var slot := chests[loc][pick];
            b'.balance == paid.balance && b'.hand == paid.hand - 1 &&
            (slot.None? ==> r == EmptySlot && b'.inventory == paid.inventory) &&
            (slot.Some? ==> r == Delivered(slot.value) && b'.inventory == paid.inventory + [slot.value])
  {
    ChestOfFound(c.rows, at, chests.Keys);
  }

  /** At a registered sign whose bound chest exists, a covered and
      successful withdrawal charges the row's price, takes one ticket and
      delivers the drawn slot's item when there is one. */
  lemma PurchaseAtBoundSign(s: DbState, at: Location, b: Buyer, chests: Chests, pick: nat,
                            now: int, ttl: i32, checkOk: bool, k: int)
    requires PickFits(chests, pick)
    requires WellFormed(s.rows, s.nextId) && Synced(s)
    requires 0 <= k < |s.rows| && s.rows[k].Sign() == at && s.rows[k].Chest() in chests
    requires b.balance >= s.rows[k].price
    ensures var (r, t, b') := Buy(s, at, s.rows[k].name, b, chests, pick, now, ttl, checkOk, true, true, true);
            var slot := chests[s.rows[k].Chest()][pick];
            t == Checked(s, now, ttl, checkOk) &&
            b'.balance == b.balance - s.rows[k].price && b'.hand == b.hand - 1 &&
            (slot.None? ==> r == EmptySlot && b'.inventory == b.inventory) &&
            (slot.Some? ==> r == Delivered(slot.value) && b'.inventory == b.inventory + [slot.value])
  {
    var c := Checked(s, now, ttl, checkOk);
    RegisteredSignResolves(s, at, now, ttl, checkOk, k);
    BuyAfterPayment(s, at, s.rows[k].name, b, chests, pick, now, ttl, checkOk, true, s.rows[k].price);
    assert ChestOf(c.rows, at, chests.Keys, true) == ChestFound(s.rows[k].Chest());
    DrawFromChest(c, at, b.(balance := b.balance - s.rows[k].price), chests, pick, s.rows[k].Chest());
  }

  // --------------------------------------------------------------- chest bind

  /** How `chestProc` ended. */
  datatype Bind = NotPunching | Bound(name: string) | BindFailed(name: string)

  /** `chestProc`: a player with a pending name has the event cancelled,
      loses the pending name whatever happens next, and the clicked block's
      x, y and z become the chest of that name (in the row's own world). */
  function BindChest(s: DbState, pending: map<Player, string>, p: Player, at: Location,
                     lookupOk: bool, updateOk: bool): (Bind, DbState, map<Player, string>)
  {
    if p !in pending then (NotPunching, s, pending)
    else
      var name := pending[p];
      var (ok, t) := UpdateChest(s, name, at.x, at.y, at.z, lookupOk, updateOk);
      (if ok then Bound(name) else BindFailed(name), t, pending - {p})
  }

  /** The pending name is consumed on every path, other players keep
      theirs, a failed bind leaves the table as it was, the bind keeps the table well formed and the cache synced,
      and only the clicked block's coordinates matter, not its world. */
  lemma BindConsumesPending(s: DbState, pending: map<Player, string>, p: Player, at: Location,
                            lookupOk: bool, updateOk: bool, otherWorld: string)
    requires WellFormed(s.rows, s.nextId)
    ensures var (r, t, pending') := BindChest(s, pending, p, at, lookupOk, updateOk);
            p !in pending' && (forall q :: q != p ==> (q in pending' <==> q in pending)) &&
            (forall q :: q != p && q in pending ==> pending'[q] == pending[q]) &&
            (r.NotPunching? <==> p !in pending) &&
            (r.NotPunching? ==> t == s) && (r.BindFailed? ==> t == s) &&
            WellFormed(t.rows, t.nextId) && (Synced(s) ==> Synced(t)) &&
            BindChest(s, pending, p, at.(world := otherWorld), lookupOk, updateOk) == (r, t, pending')
  {
    if p in pending {
      UpdateChestPreservesWellFormed(s, pending[p], at.x, at.y, at.z, lookupOk, updateOk);
      if Synced(s) {
        UpdateChestKeepsCache(s, pending[p], at.x, at.y, at.z, lookupOk, updateOk);
      }
    }
  }

  // ------------------------------------------------------------- click routing

  datatype Action = RightClickBlock | OtherAction

  /** The clicked block as its block data describes it. */
  datatype BlockKind = StandingSign(lines: seq<string>) | WallSign(lines: seq<string>) | ChestBlock | OtherBlock

  datatype Handler = ToPurchase | ToBind | Ignored

  /** `onPlayerInteract` as written: the test `data instanceof Sign` uses
      the imported block-state interface `org.bukkit.block.Sign`, which no
      block-data object implements, so only wall signs reach the purchase. */
  function RouteAsWritten(action: Action, block: BlockKind): Handler
  {
    if action != RightClickBlock then Ignored
    else if block.WallSign? then ToPurchase
    else if block.ChestBlock? then ToBind
    else Ignored
  }

  /** `onPlayerInteract` as intended: a right click on any sign goes to the
      purchase, on a chest to the bind, and nothing else is handled. */
  function Route(action: Action, block: BlockKind): Handler
  {
    if action != RightClickBlock then Ignored
    else if block.StandingSign? || block.WallSign? then ToPurchase
    else if block.ChestBlock? then ToBind
    else Ignored
  }

  /** The difference: a right click on a standing gacha sign is ignored as
      written, and purchases there are impossible. */
  lemma StandingSignIgnoredAsWritten(lines: seq<string>)
    ensures RouteAsWritten(RightClickBlock, StandingSign(lines)) == Ignored
    ensures Route(RightClickBlock, StandingSign(lines)) == ToPurchase
  {
  }

  /** The intended routing: purchases exactly for right clicks on signs,
      binds exactly for right clicks on chests; the two agree on every
      block that is not a standing sign. */
  lemma RouteSpec(action: Action, block: BlockKind)
    ensures Route(action, block) == ToPurchase <==>
            action == RightClickBlock && (block.StandingSign? || block.WallSign?)
    ensures Route(action, block) == ToBind <==> action == RightClickBlock && block.ChestBlock?
    ensures !block.StandingSign? ==> RouteAsWritten(action, block) == Route(action, block)
  {
  }
}

=== FILE: keys.dfy ===
/** The sign cache key: world name and block coordinates joined by `_`, as
    `String.join("_", world, String.valueOf(x), String.valueOf(y),
    String.valueOf(z))` builds it. */
module Keys {
  import opened Common
  import opened Decimal

  function CacheKey(loc: Location): (k: string)
  {
    loc.world + "_" + IntToString(loc.x) + "_" + IntToString(loc.y) + "_" + IntToString(loc.z)
  }

  /** Cutting a string at its last `_` is unique: if `a + "_" + b` is the
      same string for two underscore-free tails `b`, the parts agree. */
  lemma SplitAtLastSeparator(a1: string, b1: string, a2: string, b2: string)
    requires '_' !in b1 && '_' !in b2
    requires a1 + "_" + b1 == a2 + "_" + b2
    ensures a1 == a2 && b1 == b2
  {
    var s := a1 + "_" + b1;
    assert s == a2 + "_" + b2;
    assert s[|a1|] == '_' && s[|a2|] == '_';
    assert forall i :: |a1| < i < |s| ==> s[i] == b1[i - |a1| - 1];
    assert forall i :: |a2| < i < |s| ==> s[i] == b2[i - |a2| - 1];
    assert |a2| <= |a1| && |a1| <= |a2|;
    assert a1 == s[..|a1|] == a2;
    assert b1 == s[|a1| + 1..] == b2;
  }

  /** Distinct locations give distinct keys, even when world names contain
      `_`: the three coordinates never do, so the key splits from the right. */
  lemma CacheKeyInjective(l1: Location, l2: Location)
    requires CacheKey(l1) == CacheKey(l2)
    ensures l1 == l2
  {
    var p1 := l1.world + "_" + IntToString(l1.x) + "_" + IntToString(l1.y);
    var p2 := l2.world + "_" + IntToString(l2.x) + "_" + IntToString(l2.y);
    IntToStringShape(l1.x); IntToStringShape(l1.y); IntToStringShape(l1.z);
    IntToStringShape(l2.x); IntToStringShape(l2.y); IntToStringShape(l2.z);
    SplitAtLastSeparator(p1, IntToString(l1.z), p2, IntToString(l2.z));
    var q1 := l1.world + "_" + IntToString(l1.x);
    var q2 := l2.world + "_" + IntToString(l2.x);
    SplitAtLastSeparator(q1, IntToString(l1.y), q2, IntToString(l2.y));
    SplitAtLastSeparator(l1.world, IntToString(l1.x), l2.world, IntToString(l2.x));
    IntToStringInjective(l1.x, l2.x);
    IntToStringInjective(l1.y, l2.y);
    IntToStringInjective(l1.z, l2.z);
  }
}

=== FILE: listener.dfy ===
/** `GachaPlusListener`: the event handlers, performing the steps of the
    functions in module Handlers on the live objects (the database, the
    punch tracker, the event and the clicking player), each proved to end
    in the state its function describes. */
module Listener {
  import opened Common
  import opened Decimal
  import opened Registry
  import opened Database
  import opened Utility
  import opened Handlers

  /** A `SignChangeEvent`: who edited which sign block, whether they hold
      `gachaplus.create`, the four submitted lines, and the cancelled flag. */
  class SignChangeEvent {
    const player: Player
    const canCreate: bool
    const at: Location
    var lines: seq<string>
    var cancelled: bool

    constructor (player: Player, canCreate: bool, at: Location, lines: seq<string>)
      requires |lines| == 4
      ensures this.player == player && this.canCreate == canCreate && this.at == at
      ensures this.lines == lines && !cancelled
    {
      this.player := player;
      this.canCreate := canCreate;
      this.at := at;
      this.lines := lines;
      cancelled := false;
    }
  }

  /** The clicking player: Vault balance, amount of the stack held in the
      main hand, and inventory. */
  class PlayerState {
    const player: Player
    var balance: int
    var hand: int
    var inventory: seq<ItemStack>

    constructor (player: Player, balance: int, hand: int, inventory: seq<ItemStack>)
      ensures this.player == player && Value() == Buyer(balance, hand, inventory)
    {
      this.player := player;
      this.balance := balance;
      this.hand := hand;
      this.inventory := inventory;
    }

    function Value(): Buyer
      reads this
    {
      Buyer(balance, hand, inventory)
    }
  }

  /** A `PlayerInteractEvent`: the action, the clicked block (its kind and,
      for a sign, its current lines), its location, the player, and the
      cancelled flag. */
  class InteractEvent {
    const action: Action
    const block: BlockKind
    const at: Location
    const who: PlayerState
    var cancelled: bool

    constructor (action: Action, block: BlockKind, at: Location, who: PlayerState)
      ensures this.action == action && this.block == block && this.at == at && this.who == who
      ensures !cancelled
    {
      this.action := action;
      this.block := block;
      this.at := at;
      this.who := who;
      cancelled := false;
    }
  }

  /** What `onPlayerInteract` did. */
  datatype Interaction = Unhandled | OnSign(purchase: Purchase) | OnChest(bind: Bind)

  class GachaListener {
    const db: GachaDatabase
    const punch: PunchTracker
    /** The configured `sign-line1-prefix`, `sign-line2-prefix` and
        `sign-line3`. */
    const line1Prefix: string
    const line2Prefix: string
    const line3: string
    /** `economy.format`: the price as the economy writes it. */
    const format: i32 -> string

    ghost predicate Valid()
      reads this, db
    {
      db.Valid()
    }

    constructor (db: GachaDatabase, punch: PunchTracker, line1Prefix: string, line2Prefix: string,
                 line3: string, format: i32 -> string)
      requires db.Valid()
      ensures Valid() && this.db == db && this.punch == punch
      ensures this.line1Prefix == line1Prefix && this.line2Prefix == line2Prefix && this.line3 == line3
      ensures this.format == format
    {
      this.db := db;
      this.punch := punch;
      this.line1Prefix := line1Prefix;
      this.line2Prefix := line2Prefix;
      this.line3 := line3;
      this.format := format;
    }

    /** `onSignChange(event)`. A registered sign is rewritten to the display
        line, the name line, the configured third line and the formatted
        price; every other outcome leaves the lines as submitted. */
    method OnSignChange(e: SignChangeEvent, now: int, checkOk: bool, lookupOk: bool, insertOk: bool,
                        refreshOk: bool) returns (r: Registration)
      requires Valid() && |e.lines| == 4
      modifies db, e
      ensures Valid()
      ensures (r, db.State()) == Register(old(db.State()), old(e.lines), e.canCreate, e.at, now, db.expireSeconds,
                                          checkOk, lookupOk, insertOk, refreshOk)
      ensures e.cancelled == (old(e.cancelled) || r.Cancels())
      ensures e.lines == if r.Registered?
                         then SignLines(line1Prefix, line2Prefix, line3, old(e.lines)[1], old(e.lines)[2],
                                        format(ParseInt(old(e.lines)[3]).value))
                         else old(e.lines)
    {
      if !IsHeader(e.lines[0]) {
        return NotHeader;
      }
      if !e.canCreate {
        return NoPermission;
      }
      var known := db.IsGacha(e.at, now, checkOk);
      if known {
        e.cancelled := true;
        return AlreadyRegistered;
      }
      var name := e.lines[1];
      var displayName := e.lines[2];
      var price := ParseInt(e.lines[3]);
      if price.None? {
        return BadPrice;
      }
      if !ValidName(name) {
        e.cancelled := true;
        return BadName;
      }
      var id := db.GetOrCreateGacha(name, displayName, price.value, e.at, now, lookupOk, insertOk, refreshOk);
      if id.None? {
        e.cancelled := true;
        return CreateFailed;
      }
      e.lines := SignLines(line1Prefix, line2Prefix, line3, name, displayName, format(price.value));
      return Registered(id.value);
    }

    /** `signProc(event)`: the purchase on a clicked sign, looked up by the
        sign's second line as it reads now. The event is cancelled as soon
        as the sign is known to be a gacha sign. */
    method SignProc(e: InteractEvent, now: int, chests: Chests, pick: nat,
                    checkOk: bool, priceOk: bool, withdrawOk: bool, chestOk: bool) returns (r: Purchase)
      requires Valid() && (e.block.StandingSign? || e.block.WallSign?) && |e.block.lines| == 4
      requires PickFits(chests, pick)
      modifies db, e, e.who
      ensures Valid()
      ensures db.State() == Checked(old(db.State()), now, db.expireSeconds, checkOk)
      ensures (r, e.who.Value()) ==
              Sell(db.State(), e.at, e.block.lines[1], old(e.who.Value()), chests, pick, priceOk, withdrawOk, chestOk)
      ensures e.cancelled == (old(e.cancelled) || r != NotGacha)
    {
      ghost var b0 := e.who.Value();
      var known := db.IsGacha(e.at, now, checkOk);
      if !known {
        return NotGacha;
      }
      e.cancelled := true;
      var price := db.GetGachaPrice(e.block.lines[1], priceOk);
      if price.None? {
        return PriceMissing;
      }
      if e.who.balance < price.value {
        return InsufficientFunds;
      }
      if !withdrawOk {
        return WithdrawFailed;
      }
      e.who.balance := e.who.balance - price.value;
      assert e.who.Value() == b0.(balance := b0.balance - price.value);
      assert Sell(db.State(), e.at, e.block.lines[1], b0, chests, pick, priceOk, withdrawOk, chestOk) ==
             Draw(db.State(), e.at, e.who.Value(), chests, pick, chestOk);
      r := Dispense(e, chests, pick, chestOk);
    }

    /** The rest of `signProc` once the price is withdrawn: the chest
        lookup, one ticket taken from the main hand, and the item in slot
        `pick` added to the inventory. */
    method Dispense(e: InteractEvent, chests: Chests, pick: nat, chestOk: bool) returns (r: Purchase)
      requires PickFits(chests, pick)
      modifies e.who
      ensures (r, e.who.Value()) == Draw(db.State(), e.at, old(e.who.Value()), chests, pick, chestOk)
    {
      var chest := db.GetGachaChest(e.at, chestOk, chests.Keys);
      if !chest.ChestFound? {
        return NoChest(chest);
      }
      ChestOfFound(db.rows, e.at, chests.Keys);
      e.who.hand := e.who.hand - 1;
      var slot := chests[chest.at][pick];
      if slot.None? {
        return EmptySlot;
      }
      e.who.inventory := e.who.inventory + [slot.value];
      return Delivered(slot.value);
    }

    /** `chestProc(event)`: the bind that a pending `modify` asked for. */
    method ChestProc(e: InteractEvent, lookupOk: bool, updateOk: bool) returns (r: Bind)
      requires Valid()
      modifies db, punch, e
      ensures Valid()
      ensures (r, db.State(), punch.pending) ==
              BindChest(old(db.State()), old(punch.pending), e.who.player, e.at, lookupOk, updateOk)
      ensures e.cancelled == (old(e.cancelled) || !r.NotPunching?)
    {
      var p := e.who.player;
      if !punch.IsInPunch(p) {
        return NotPunching;
      }
      e.cancelled := true;
      var name := punch.GachaNameInPunch(p).value;
      punch.RemovePunch(p);
      var ok := db.UpdateGachaChest(name, e.at.x, e.at.y, e.at.z, lookupOk, updateOk);
      r := if ok then Bound(name) else BindFailed(name);
    }

    /** `onPlayerInteract(event)`: a right click on a sign runs the purchase,
        on a chest the bind; anything else changes nothing. The event is
        cancelled by a click on a cached gacha sign or by a pending bind. */
    method OnPlayerInteract(e: InteractEvent, now: int, chests: Chests, pick: nat, checkOk: bool, priceOk: bool,
                            withdrawOk: bool, chestOk: bool, lookupOk: bool, updateOk: bool) returns (r: Interaction)
      requires Valid() && PickFits(chests, pick)
      requires e.block.StandingSign? || e.block.WallSign? ==> |e.block.lines| == 4
      modifies db, punch, e, e.who
      ensures Valid()
      ensures Route(e.action, e.block) == Ignored ==>
                r == Unhandled && db.State() == old(db.State()) && punch.pending == old(punch.pending) &&
                e.who.Value() == old(e.who.Value()) && e.cancelled == old(e.cancelled)
      ensures Route(e.action, e.block) == ToPurchase ==>
                r.OnSign? && punch.pending == old(punch.pending) &&
                e.cancelled == (old(e.cancelled) || r.purchase != NotGacha) &&
                db.State() == Checked(old(db.State()), now, db.expireSeconds, checkOk) &&
                (r.purchase, e.who.Value()) ==
                Sell(db.State(), e.at, e.block.lines[1], old(e.who.Value()), chests, pick, priceOk, withdrawOk, chestOk)
      ensures Route(e.action, e.block) == ToBind ==>
                r.OnChest? && e.who.Value() == old(e.who.Value()) &&
                e.cancelled == (old(e.cancelled) || !r.bind.NotPunching?) &&
                (r.bind, db.State(), punch.pending) ==
                BindChest(old(db.State()), old(punch.pending), e.who.player, e.at, lookupOk, updateOk)
    {
      var route := Route(e.action, e.block);
      if route == ToPurchase {
        var purchase := SignProc(e, now, chests, pick, checkOk, priceOk, withdrawOk, chestOk);
        r := OnSign(purchase);
      } else if route == ToBind {
        var bind := ChestProc(e, lookupOk, updateOk);
        r := OnChest(bind);
      } else {
        r := Unhandled;
      }
    }
  }
}

=== FILE: plugin.dfy ===
/** `GachaPlus.onCommand`: the `/gachaplus` dispatcher. It picks the
    subcommand from the first argument, runs it only when the sender holds
    its permission (`list`, `modify`, `delete`) or is an operator (`enable`,
    `reload`, `disable`), and in its `finally` block always finalizes the
    command object. The returned flag is false only when Bukkit should show
    the usage text. */
module Plugin {
  import opened Common
  import opened Registry
  import opened Database
  import opened Utility
  import opened Handlers
  import opened Listener
  import opened Command

  /** The branch `onCommand` takes. */
  datatype Decision =
    | Skipped    // another command, or no arguments
    | Unknown    // the `default:` branch
    | Denied     // a known subcommand without its permission
    | RunList | RunModify | RunDelete | RunEnable | RunReload | RunDisable

  function Decide(commandName: string, args: seq<string>, sender: Sender): Decision
  {
    if commandName != "gachaplus" || |args| == 0 then Skipped
    else
      var sub := args[0];
      if sub == "list" then (if "gachaplus.list" in sender.perms then RunList else Denied)
      else if sub == "modify" then (if "gachaplus.modify" in sender.perms then RunModify else Denied)
      else if sub == "delete" then (if "gachaplus.delete" in sender.perms then RunDelete else Denied)
      else if sub == "enable" then (if sender.op then RunEnable else Denied)
      else if sub == "reload" then (if sender.op then RunReload else Denied)
      else if sub == "disable" then (if sender.op then RunDisable else Denied)
      else Unknown
  }

  /** The decision table: an unknown subcommand is the only way to get the
      usage text without running anything, a subcommand runs exactly when
      the sender holds its permission (`list`, `modify`, `delete`) or is an
      operator (`enable`, `reload`, `disable`), and it is denied exactly
      when the sender lacks that. */
  lemma DecisionTable(commandName: string, args: seq<string>, sender: Sender)
    ensures var d := Decide(commandName, args, sender);
            (d == Skipped <==> commandName != "gachaplus" || args == []) &&
            (d == Unknown <==> commandName == "gachaplus" && args != [] &&
                               args[0] !in {"list", "modify", "delete", "enable", "reload", "disable"}) &&
            (d == RunList <==> commandName == "gachaplus" && args != [] && args[0] == "list" &&
                               "gachaplus.list" in sender.perms) &&
            (d == RunModify <==> commandName == "gachaplus" && args != [] && args[0] == "modify" &&
                                 "gachaplus.modify" in sender.perms) &&
            (d == RunDelete <==> commandName == "gachaplus" && args != [] && args[0] == "delete" &&
                                 "gachaplus.delete" in sender.perms) &&
            (d == RunEnable <==> commandName == "gachaplus" && args != [] && args[0] == "enable" && sender.op) &&
            (d == RunReload <==> commandName == "gachaplus" && args != [] && args[0] == "reload" && sender.op) &&
            (d == RunDisable <==> commandName == "gachaplus" && args != [] && args[0] == "disable" && sender.op) &&
            (d == Denied <==> commandName == "gachaplus" && args != [] &&
                              ((args[0] == "list" && "gachaplus.list" !in sender.perms) ||
                               (args[0] == "modify" && "gachaplus.modify" !in sender.perms) ||
                               (args[0] == "delete" && "gachaplus.delete" !in sender.perms) ||
                               (args[0] in {"enable", "reload", "disable"} && !sender.op)))
  {
  }

  class GachaPlus {
    const database: GachaDatabase
    const punch: PunchTracker
    const command: GachaCommand
    const listener: GachaListener

    ghost predicate Valid()
      reads this, database
    {
      database.Valid() && command.db == database && command.punch == punch &&
      listener.db == database && listener.punch == punch
    }

    /** The objects `onEnable` creates over an existing table: the database
        (initialized, so the cache is refreshed once), the listener and the
        command object, sharing one pending-bind store. */
    constructor (table: seq<Row>, next: int, expireSeconds: i32, now: int, refreshOk: bool,
                 line1Prefix: string, line2Prefix: string, line3: string, format: i32 -> string)
      requires WellFormed(table, next)
      ensures Valid() && fresh(database) && fresh(punch) && fresh(command)
      ensures database.State() == Refreshed(DbState(table, next, [], 0), now, expireSeconds, refreshOk)
      ensures punch.pending == map[] && command.sender.None? && command.args.None?
    {
      var db := new GachaDatabase(table, next, expireSeconds);
      var refreshed := db.Initialize(now, refreshOk);
      var store := new PunchTracker();
      database := db;
      punch := store;
      listener := new GachaListener(db, store, line1Prefix, line2Prefix, line3, format);
      command := new GachaCommand(db, store);
    }

    /** `onCommand(sender, command, label, args)`. `queryOk`, `deleteOk` and
        `refreshOk` are the outcomes of the SQL statements the subcommand
        runs; `now` is the clock. */
    method OnCommand(sender: Sender, commandName: string, args: seq<string>, now: int,
                     queryOk: bool, deleteOk: bool, refreshOk: bool) returns (flag: bool, msgs: seq<Message>)
      requires Valid()
      modifies command, database, punch
      ensures Valid()
      ensures command.sender.None? && command.args.None?
      ensures var d := Decide(commandName, args, sender);
              (d !in {RunModify, RunDelete} ==> database.State() == old(database.State()) &&
                                                 punch.pending == old(punch.pending)) &&
              (d in {Skipped, Denied} ==> flag && msgs == []) &&
              (d == Unknown ==> !flag && msgs == []) &&
              (d == RunList ==> flag && msgs == ListMessages(if queryOk then Listings(database.rows) else [])) &&
              (d == RunModify ==> database.State() == old(database.State()) &&
                                  (flag, punch.pending, msgs) ==
                                  ModifyResult(database.rows, old(punch.pending), sender, args, queryOk)) &&
              (d == RunDelete ==> punch.pending == old(punch.pending) &&
                                  (flag, database.State(), msgs) ==
                                  DeleteResult(old(database.State()), args, now, database.expireSeconds,
                                               deleteOk, refreshOk)) &&
              (d == RunEnable ==> flag && msgs == [Enabled]) &&
              (d == RunReload ==> flag && msgs == [Reloaded]) &&
              (d == RunDisable ==> flag && msgs == [Disabled])
    {
      flag := true;
      msgs := [];
      if commandName == "gachaplus" && |args| > 0 {
        var sub := args[0];
        command.Initialize(sender, args);
        if sub == "list" {
          if "gachaplus.list" in sender.perms {
            flag, msgs := command.List(queryOk);
          }
        } else if sub == "modify" {
          if "gachaplus.modify" in sender.perms {
            flag, msgs := command.Modify(queryOk);
          }
        } else if sub == "delete" {
          if "gachaplus.delete" in sender.perms {
            flag, msgs := command.Delete(now, deleteOk, refreshOk);
          }
        } else if sub == "enable" {
          if sender.op {
            flag, msgs := command.Enable();
          }
        } else if sub == "reload" {
          if sender.op {
            flag, msgs := command.Reload();
          }
        } else if sub == "disable" {
          if sender.op {
            flag, msgs := command.Disable();
          }
        } else {
          flag := false;
        }
      }
      // the `finally` block
      command.Finalize();
    }
  }
}

=== FILE: registry.dfy ===
/** The `gacha` table and the sign cache as values: the rows with their three
    unique indexes, and one specification function per database operation
    giving its result and the next database state. The class in module
    Database performs these operations step by step and is proved to agree
    with them; the lemmas here state what the operations promise. */
module Registry {
  import opened Common
  import opened Keys

  /** One row of the `gacha` table (the timestamp columns are left out). */
  datatype Row = Row(id: int, name: string, displayName: string, price: i32,
                     world: string, signX: i32, signY: i32, signZ: i32,
                     chestX: i32, chestY: i32, chestZ: i32)
  {
    function Sign(): Location { Location(world, signX, signY, signZ) }
    function Chest(): Location { Location(world, chestX, chestY, chestZ) }
  }

  /** Two rows that the unique indexes on `gacha_name`, on
      `(world_name, sign_x, sign_y, sign_z)` and on
      `(world_name, chest_x, chest_y, chest_z)` cannot both admit. */
  predicate Clash(a: Row, b: Row)
  {
    a.name == b.name || a.Sign() == b.Sign() || a.Chest() == b.Chest()
  }

  /** The table as SQLite keeps it: rowid order is ascending id, every id is
      below the AUTOINCREMENT counter, and no two rows clash. */
  ghost predicate WellFormed(rows: seq<Row>, nextId: int)
  {
    && (forall i :: 0 <= i < |rows| ==> rows[i].id < nextId)
    && (forall i, j :: 0 <= i < j < |rows| ==> rows[i].id < rows[j].id && !Clash(rows[i], rows[j]))
  }

  /** The database object's state: the table, the AUTOINCREMENT counter, the
      cached sign keys and the cache expiry in milliseconds. */
  datatype DbState = DbState(rows: seq<Row>, nextId: int, cache: seq<string>, expire: int)

  // ---------------------------------------------------------------- lookups

  /** The last row named `name`; the `while (rs.next())` loops of the
      lookups keep the last row the query returns. */
  function LastNamed(rows: seq<Row>, name: string): (r: Option<nat>)
    ensures r.Some? ==> r.value < |rows| && rows[r.value].name == name
    ensures r.Some? ==> forall j :: r.value < j < |rows| ==> rows[j].name != name
    ensures r.None? <==> forall j :: 0 <= j < |rows| ==> rows[j].name != name
  {
    if rows == [] then None
    else if rows[|rows| - 1].name == name then Some(|rows| - 1)
    else LastNamed(rows[..|rows| - 1], name)
  }

  /** The last row whose sign is at `sign`. */
  function LastAtSign(rows: seq<Row>, sign: Location): (r: Option<nat>)
    ensures r.Some? ==> r.value < |rows| && rows[r.value].Sign() == sign
    ensures r.Some? ==> forall j :: r.value < j < |rows| ==> rows[j].Sign() != sign
    ensures r.None? <==> forall j :: 0 <= j < |rows| ==> rows[j].Sign() != sign
  {
    if rows == [] then None
    else if rows[|rows| - 1].Sign() == sign then Some(|rows| - 1)
    else LastAtSign(rows[..|rows| - 1], sign)
  }

  /** `SELECT id FROM gacha WHERE gacha_name=?` */
  function IdOf(rows: seq<Row>, name: string): Option<int>
  {
    match LastNamed(rows, name)
    case None => None
    case Some(k) => Some(rows[k].id)
  }

  /** `SELECT gacha_price FROM gacha WHERE gacha_name = ?` */
  function PriceOf(rows: seq<Row>, name: string): Option<i32>
  {
    match LastNamed(rows, name)
    case None => None
    case Some(k) => Some(rows[k].price)
  }

  /** In a well-formed table a name picks out exactly one row. */
  lemma NamedRowUnique(rows: seq<Row>, nextId: int, name: string, i: int)
    requires WellFormed(rows, nextId)
    requires 0 <= i < |rows| && rows[i].name == name
    ensures LastNamed(rows, name) == Some(i)
    ensures IdOf(rows, name) == Some(rows[i].id) && PriceOf(rows, name) == Some(rows[i].price)
  {
    var k := LastNamed(rows, name).value;
    assert i <= k;
    assert i == k || Clash(rows[i], rows[k]);
  }

  /** In a well-formed table a sign location picks out at most one row. */
  lemma SignRowUnique(rows: seq<Row>, nextId: int, sign: Location, k: int)
    requires WellFormed(rows, nextId)
    requires 0 <= k < |rows| && rows[k].Sign() == sign
    ensures LastAtSign(rows, sign) == Some(k)
  {
    forall j | k < j < |rows|
      ensures rows[j].Sign() != sign
    {
      assert !Clash(rows[k], rows[j]);
    }
  }

  // ------------------------------------------------------------ sign cache

  /** The cache keys `refreshCache` collects, one per row in table order. */
  function SignKeys(rows: seq<Row>): seq<string>
  {
    seq(|rows|, i requires 0 <= i < |rows| => CacheKey(rows[i].Sign()))
  }

  /** `isGacha(loc, false)`: the cached key list contains the key of `loc`. */
  predicate Cached(s: DbState, loc: Location)
  {
    CacheKey(loc) in s.cache
  }

  /** The cache holds exactly the sign keys of the current table. */
  ghost predicate Synced(s: DbState)
  {
    s.cache == SignKeys(s.rows)
  }

  /** `refreshCache`: on success the key list is rebuilt from every row and
      the expiry becomes `now + ttl * 1000`, the product computed in 32-bit
      `int` arithmetic; a failed query leaves both untouched. */
  function Refreshed(s: DbState, now: int, ttl: i32, ok: bool): DbState
  {
    if ok then s.(cache := SignKeys(s.rows), expire := now + Wrap32(ttl * 1000)) else s
  }

  /** `isGacha(loc, cacheClear)`: refreshes first only when asked to. */
  function CheckedWith(s: DbState, cacheClear: bool, now: int, ttl: i32, ok: bool): DbState
  {
    if cacheClear then Refreshed(s, now, ttl, ok) else s
  }

  /** `isGacha(loc)`: asks for a refresh when `expireCache > now`, that is
      while the cache is still fresh, and never once it has expired. */
  function Checked(s: DbState, now: int, ttl: i32, ok: bool): DbState
  {
    CheckedWith(s, s.expire > now, now, ttl, ok)
  }

  /** A key is in the key list of a table exactly when some row's sign is
      at that location. */
  lemma SignKeysMembership(rows: seq<Row>, loc: Location)
    ensures CacheKey(loc) in SignKeys(rows) <==> exists i :: 0 <= i < |rows| && rows[i].Sign() == loc
  {
    var keys := SignKeys(rows);
    if CacheKey(loc) in keys {
      var i :| 0 <= i < |keys| && keys[i] == CacheKey(loc);
      CacheKeyInjective(rows[i].Sign(), loc);
    }
    if exists i :: 0 <= i < |rows| && rows[i].Sign() == loc {
      var i :| 0 <= i < |rows| && rows[i].Sign() == loc;
      assert keys[i] == CacheKey(loc);
    }
  }

  /** After a successful refresh the membership test answers exactly "is
      there a row whose sign is here", and the expiry is reset. */
  lemma RefreshIsExact(s: DbState, now: int, ttl: i32, loc: Location)
    ensures Synced(Refreshed(s, now, ttl, true))
    ensures Cached(Refreshed(s, now, ttl, true), loc) <==>
            exists i :: 0 <= i < |s.rows| && s.rows[i].Sign() == loc
    ensures Refreshed(s, now, ttl, true).expire == now + Wrap32(ttl * 1000)
  {
    SignKeysMembership(s.rows, loc);
  }

  /** While the cache is in step with the table, `isGacha(loc, false)` is
      true exactly for registered sign locations. */
  lemma CachedIffRegistered(s: DbState, loc: Location)
    requires Synced(s)
    ensures Cached(s, loc) <==> exists i :: 0 <= i < |s.rows| && s.rows[i].Sign() == loc
  {
    SignKeysMembership(s.rows, loc);
  }

  /** The inverted expiry test of `isGacha(loc)`: before expiry every call
      refreshes (and so reads storage), after expiry no call does. */
  lemma ExpiryTestInverted(s: DbState, now: int, ttl: i32, ok: bool)
    ensures s.expire <= now ==> Checked(s, now, ttl, ok) == s
    ensures s.expire > now ==> Checked(s, now, ttl, ok) == Refreshed(s, now, ttl, ok)
  {
  }

  // ------------------------------------------------------------- get-or-create

  /** The row the INSERT of the get-or-create adds: the chest columns take
      their default 0. */
  function NewRow(id: int, name: string, displayName: string, price: i32, sign: Location): Row
  {
    Row(id, name, displayName, price, sign.world, sign.x, sign.y, sign.z, 0, 0, 0)
  }

  /** The unique indexes admit `row` beside every existing row. */
  predicate Admits(rows: seq<Row>, row: Row)
  {
    forall i :: 0 <= i < |rows| ==> !Clash(rows[i], row)
  }

  /** `getGacha(name, displayName, price, world, x, y, z)`: the id of an
      existing row with that name (nothing written), or else an INSERT that
      either fails on a unique index or a storage error (null, nothing
      written) or adds one row, refreshes the cache and yields the new id.
      A failed name lookup counts as "no such name". */
  function Create(s: DbState, name: string, displayName: string, price: i32, sign: Location,
                  now: int, ttl: i32, lookupOk: bool, insertOk: bool, refreshOk: bool): (Option<int>, DbState)
  {
    var found := if lookupOk then IdOf(s.rows, name) else None;
    if found.Some? then (found, s)
    else
      var row := NewRow(s.nextId, name, displayName, price, sign);
      if insertOk && Admits(s.rows, row) then
        (Some(s.nextId), Refreshed(s.(rows := s.rows + [row], nextId := s.nextId + 1), now, ttl, refreshOk))
      else
        (None, s)
  }

  lemma CreatePreservesWellFormed(s: DbState, name: string, displayName: string, price: i32, sign: Location,
                                  now: int, ttl: i32, lookupOk: bool, insertOk: bool, refreshOk: bool)
    requires WellFormed(s.rows, s.nextId)
    ensures var t := Create(s, name, displayName, price, sign, now, ttl, lookupOk, insertOk, refreshOk).1;
            WellFormed(t.rows, t.nextId)
  {
  }

  /** A get-or-create either returns null and changes nothing, or returns
      the id of the one row that then carries the name. */
  lemma CreateOutcome(s: DbState, name: string, displayName: string, price: i32, sign: Location,
                      now: int, ttl: i32, lookupOk: bool, insertOk: bool, refreshOk: bool)
    requires WellFormed(s.rows, s.nextId)
    ensures var (id, t) := Create(s, name, displayName, price, sign, now, ttl, lookupOk, insertOk, refreshOk);
            (id.None? ==> t == s) &&
            (id.Some? ==> exists i :: 0 <= i < |t.rows| && t.rows[i].name == name && t.rows[i].id == id.value &&
                                      forall j :: 0 <= j < |t.rows| && t.rows[j].name == name ==> j == i)
  {
    var (id, t) := Create(s, name, displayName, price, sign, now, ttl, lookupOk, insertOk, refreshOk);
    CreatePreservesWellFormed(s, name, displayName, price, sign, now, ttl, lookupOk, insertOk, refreshOk);
    if id.Some? {
      var i: int;
      if lookupOk && IdOf(s.rows, name).Some? {
        i := LastNamed(s.rows, name).value;
      } else {
        i := |t.rows| - 1;
      }
      assert t.rows[i].name == name && t.rows[i].id == id.value;
      forall j | 0 <= j < |t.rows| && t.rows[j].name == name
        ensures j == i
      {
        NamedRowUnique(t.rows, t.nextId, name, i);
        NamedRowUnique(t.rows, t.nextId, name, j);
      }
    }
  }

  /** Get-or-create is idempotent by name: once it has produced an id, a
      second call with the same name (whatever its other arguments) returns
      that id and changes nothing, provided the name lookup itself works. */
  lemma CreateIdempotent(s: DbState, name: string, displayName: string, price: i32, sign: Location,
                         now: int, ttl: i32, lookupOk: bool, insertOk: bool, refreshOk: bool,
                         displayName': string, price': i32, sign': Location, now': int,
                         insertOk': bool, refreshOk': bool)
    requires WellFormed(s.rows, s.nextId)
    requires Create(s, name, displayName, price, sign, now, ttl, lookupOk, insertOk, refreshOk).0.Some?
    ensures var (id, t) := Create(s, name, displayName, price, sign, now, ttl, lookupOk, insertOk, refreshOk);
            Create(t, name, displayName', price', sign', now', ttl, true, insertOk', refreshOk') == (id, t)
  {
    var (id, t) := Create(s, name, displayName, price, sign, now, ttl, lookupOk, insertOk, refreshOk);
    CreateOutcome(s, name, displayName, price, sign, now, ttl, lookupOk, insertOk, refreshOk);
    CreatePreservesWellFormed(s, name, displayName, price, sign, now, ttl, lookupOk, insertOk, refreshOk);
    var i :| 0 <= i < |t.rows| && t.rows[i].name == name && t.rows[i].id == id.value;
    NamedRowUnique(t.rows, t.nextId, name, i);
  }

  /** Every row of a world whose chest is unbound sits at chest (0,0,0) of
      that world, so once one such row exists, no other new name can be
      created in that world until the first one is bound. */
  lemma UnboundChestBlocksCreate(s: DbState, name: string, displayName: string, price: i32, sign: Location,
                                 now: int, ttl: i32, lookupOk: bool, insertOk: bool, refreshOk: bool, k: int)
    requires 0 <= k < |s.rows| && s.rows[k].Chest() == Location(sign.world, 0, 0, 0)
    requires IdOf(s.rows, name).None?
    ensures Create(s, name, displayName, price, sign, now, ttl, lookupOk, insertOk, refreshOk) == (None, s)
  {
    var row := NewRow(s.nextId, name, displayName, price, sign);
    assert Clash(s.rows[k], row);
  }

  // ------------------------------------------------------------------ delete

  /** The table after `DELETE FROM gacha WHERE gacha_name = ?`. */
  function Without(rows: seq<Row>, name: string): (r: seq<Row>)
    ensures forall x :: x in r <==> x in rows && x.name != name
  {
    if rows == [] then []
    else
      var init := Without(rows[..|rows| - 1], name);
      var last := rows[|rows| - 1];
      assert forall x :: x in rows <==> x in rows[..|rows| - 1] || x == last;
      if last.name == name then init else init + [last]
  }

  /** `deleteGacha(name)`: on success of the DELETE, the rows with that name
      are gone, the cache is refreshed and the result is true, whether or
      not any row matched; only a failed DELETE yields false. */
  function Delete(s: DbState, name: string, now: int, ttl: i32, deleteOk: bool, refreshOk: bool): (bool, DbState)
  {
    if !deleteOk then (false, s)
    else (true, Refreshed(s.(rows := Without(s.rows, name)), now, ttl, refreshOk))
  }

  /** Appending a row that comes after every row and clashes with none
      keeps a table well formed. */
  lemma AppendWellFormed(w: seq<Row>, last: Row, nextId: int)
    requires WellFormed(w, nextId) && last.id < nextId
    requires forall i :: 0 <= i < |w| ==> w[i].id < last.id && !Clash(w[i], last)
    ensures WellFormed(w + [last], nextId)
  {
    var r := w + [last];
    forall i, j | 0 <= i < j < |r|
      ensures r[i].id < r[j].id && !Clash(r[i], r[j])
    {
      assert r[i] == w[i];
      if j < |w| {
        assert r[j] == w[j];
      }
    }
  }

  lemma {:induction false} WithoutWellFormed(rows: seq<Row>, nextId: int, name: string)
    requires WellFormed(rows, nextId)
    ensures WellFormed(Without(rows, name), nextId)
  {
    if rows != [] {
      var init := rows[..|rows| - 1];
      var last := rows[|rows| - 1];
      WithoutWellFormed(init, nextId, name);
      var w := Without(init, name);
      if last.name != name {
        forall i | 0 <= i < |w|
          ensures w[i].id < last.id && !Clash(w[i], last)
        {
          assert w[i] in init;
          var k :| 0 <= k < |init| && init[k] == w[i];
          assert rows[k] == w[i];
        }
        AppendWellFormed(w, last, nextId);
      }
    }
  }

  lemma DeleteEffect(s: DbState, name: string, now: int, ttl: i32, refreshOk: bool)
    requires WellFormed(s.rows, s.nextId)
    ensures var (ok, t) := Delete(s, name, now, ttl, true, refreshOk);
            ok && WellFormed(t.rows, t.nextId) && t.nextId == s.nextId &&
            IdOf(t.rows, name).None? &&
            (forall r :: r in t.rows <==> r in s.rows && r.name != name) &&
            (refreshOk ==> Synced(t))
  {
    WithoutWellFormed(s.rows, s.nextId, name);
    var t := Delete(s, name, now, ttl, true, refreshOk).1;
    assert forall j :: 0 <= j < |t.rows| ==> t.rows[j] in t.rows;
  }

  // ------------------------------------------------------------- chest bind

  /** The table after `UPDATE gacha SET chest_x, chest_y, chest_z WHERE
      gacha_name = ?`. */
  function Rebind(rows: seq<Row>, name: string, x: i32, y: i32, z: i32): seq<Row>
  {
    seq(|rows|, i requires 0 <= i < |rows| =>
      if rows[i].name == name then rows[i].(chestX := x, chestY := y, chestZ := z) else rows[i])
  }

  /** The UPDATE would give the named row the chest of another row of the
      same world, which the chest index rejects. */
  predicate RebindClashes(rows: seq<Row>, name: string, x: i32, y: i32, z: i32)
  {
    exists i, j :: 0 <= i < |rows| && 0 <= j < |rows| && rows[i].name == name && rows[j].name != name &&
                   rows[j].Chest() == Location(rows[i].world, x, y, z)
  }

  /** `updateGachaChest(name, x, y, z)`: false with nothing changed when the
      name lookup fails or finds nothing, or when the UPDATE fails;
      otherwise only that row's chest coordinates change, the cache is not
      refreshed, and the result is true. */
  function UpdateChest(s: DbState, name: string, x: i32, y: i32, z: i32, lookupOk: bool, updateOk: bool): (bool, DbState)
  {
    if !lookupOk || IdOf(s.rows, name).None? then (false, s)
    else if !updateOk || RebindClashes(s.rows, name, x, y, z) then (false, s)
    else (true, s.(rows := Rebind(s.rows, name, x, y, z)))
  }

  /** The bind succeeds exactly when the name lookup runs and finds a row,
      the UPDATE executes and the new chest does not clash on the chest
      index; a rejected bind leaves the whole state as it was. */
  lemma UpdateChestOutcome(s: DbState, name: string, x: i32, y: i32, z: i32, lookupOk: bool, updateOk: bool)
    ensures var (ok, t) := UpdateChest(s, name, x, y, z, lookupOk, updateOk);
            (ok <==> lookupOk && updateOk && IdOf(s.rows, name).Some? && !RebindClashes(s.rows, name, x, y, z)) &&
            (!ok ==> t == s)
  {
  }

  lemma UpdateChestPreservesWellFormed(s: DbState, name: string, x: i32, y: i32, z: i32, lookupOk: bool, updateOk: bool)
    requires WellFormed(s.rows, s.nextId)
    ensures var t := UpdateChest(s, name, x, y, z, lookupOk, updateOk).1;
            WellFormed(t.rows, t.nextId)
  {
    var (ok, t) := UpdateChest(s, name, x, y, z, lookupOk, updateOk);
    if ok {
      forall i, j | 0 <= i < j < |t.rows|
        ensures t.rows[i].id < t.rows[j].id && !Clash(t.rows[i], t.rows[j])
      {
        assert !Clash(s.rows[i], s.rows[j]);
        if s.rows[i].name == name {
          assert s.rows[j].Chest() != Location(s.rows[i].world, x, y, z);
        } else if s.rows[j].name == name {
          assert s.rows[i].Chest() != Location(s.rows[j].world, x, y, z);
        }
      }
    }
  }

  /** A bind never touches a sign coordinate, so the cache stays exactly as
      accurate as it was and needs no refresh. */
  lemma UpdateChestKeepsCache(s: DbState, name: string, x: i32, y: i32, z: i32, lookupOk: bool, updateOk: bool)
    requires Synced(s)
    ensures var (ok, t) := UpdateChest(s, name, x, y, z, lookupOk, updateOk);
            Synced(t) && t.cache == s.cache && t.expire == s.expire && |t.rows| == |s.rows|
  {
    var (ok, t) := UpdateChest(s, name, x, y, z, lookupOk, updateOk);
    if ok {
      var a, b := SignKeys(t.rows), SignKeys(s.rows);
      assert |a| == |b|;
      assert forall i :: 0 <= i < |a| ==> a[i] == b[i];
    }
  }

  /** After a successful bind the named row's chest is the clicked block in
      the row's own world; nothing else changes: not that row's id, name,
      display name, price or sign, no other row, and neither the counter nor
      the cache. */
  lemma UpdateChestBinds(s: DbState, name: string, x: i32, y: i32, z: i32)
    requires UpdateChest(s, name, x, y, z, true, true).0
    ensures var t := UpdateChest(s, name, x, y, z, true, true).1;
            t == s.(rows := t.rows) && |t.rows| == |s.rows| &&
            forall i :: 0 <= i < |s.rows| ==>
              t.rows[i] == (if s.rows[i].name == name then s.rows[i].(chestX := x, chestY := y, chestZ := z)
                            else s.rows[i]) &&
              t.rows[i].Chest() == (if s.rows[i].name == name then Location(s.rows[i].world, x, y, z) else s.rows[i].Chest())
  {
  }

  // ------------------------------------------------------------ chest lookup

  /** What `getGachaChest(signLoc)` yields: the chest block of the row whose
      sign is at `signLoc` (`ChestFound`), null when the stored coordinates
      are not a chest block or the query fails, or a NullPointerException
      (`NoRow`) when no row matched and the null coordinates are unboxed. */
  datatype ChestLookup = ChestFound(at: Location) | NotAChest | NoRow | QueryFailed

  function ChestOf(rows: seq<Row>, sign: Location, chests: set<Location>, ok: bool): ChestLookup
  {
    if !ok then QueryFailed
    else match LastAtSign(rows, sign)
      case None => NoRow
      case Some(k) => if rows[k].Chest() in chests then ChestFound(rows[k].Chest()) else NotAChest
  }

  /** A resolved chest is a chest block in the sign's own world, bound to a
      row whose sign is there. */
  lemma ChestOfFound(rows: seq<Row>, sign: Location, chests: set<Location>)
    requires ChestOf(rows, sign, chests, true).ChestFound?
    ensures var c := ChestOf(rows, sign, chests, true).at;
            c in chests && c.world == sign.world &&
            exists k :: 0 <= k < |rows| && rows[k].Sign() == sign && rows[k].Chest() == c
  {
  }

  // ------------------------------------------------------------------ listing

  /** The columns `list()` formats for one row. */
  datatype Listing = Listing(name: string, world: string, signX: i32, signY: i32, signZ: i32,
                             chestX: i32, chestY: i32, chestZ: i32)

  function Listed(r: Row): Listing
  {
    Listing(r.name, r.world, r.signX, r.signY, r.signZ, r.chestX, r.chestY, r.chestZ)
  }

  /** What `list()` returns for a table: one entry per row, newest first. */
  function Listings(rows: seq<Row>): (l: seq<Listing>)
    ensures |l| == |rows|
    ensures forall k :: 0 <= k < |rows| ==> l[k] == Listed(rows[|rows| - 1 - k])
  {
    seq(|rows|, k requires 0 <= k < |rows| => Listed(NewestFirst(rows)[k]))
  }

  /** The rows newest first: with ids ascending in table order, this is
      the order of `ORDER BY id DESC`. */
  function NewestFirst(rows: seq<Row>): (r: seq<Row>)
    ensures |r| == |rows|
    ensures forall k :: 0 <= k < |rows| ==> r[k] == rows[|rows| - 1 - k]
  {
    if rows == [] then [] else [rows[|rows| - 1]] + NewestFirst(rows[..|rows| - 1])
  }

  /** `NewestFirst` is in strictly descending id order. */
  lemma NewestFirstDescending(rows: seq<Row>, nextId: int)
    requires WellFormed(rows, nextId)
    ensures forall a, b :: 0 <= a < b < |rows| ==> NewestFirst(rows)[a].id > NewestFirst(rows)[b].id
  {
    var r := NewestFirst(rows);
    forall a, b | 0 <= a < b < |rows|
      ensures r[a].id > r[b].id
    {
      assert r[a] == rows[|rows| - 1 - a] && r[b] == rows[|rows| - 1 - b];
    }
  }

  /** `NewestFirst` lists every row exactly once. */
  lemma {:induction false} NewestFirstPermutes(rows: seq<Row>)
    ensures multiset(NewestFirst(rows)) == multiset(rows)
  {
    if rows != [] {
      var init := rows[..|rows| - 1];
      NewestFirstPermutes(init);
      assert rows == init + [rows[|rows| - 1]];
      assert NewestFirst(rows) == [rows[|rows| - 1]] + NewestFirst(init);
    }
  }
}

=== FILE: scenario.dfy ===
/** The life of one draw point across the three handlers and the `modify`
    subcommand: a sign registered under a new name, bound to a chest by
    `/gachaplus modify` and a click on the chest, then sells what that
    chest holds at the price written on the sign. */
module Scenario {
  import opened Common
  import opened Decimal
  import opened Registry
  import opened Handlers
  import opened Command

  /** Register, modify, bind, buy, each step's outcome named. The sign's
      second line must read exactly the name when the purchase looks it
      up, which holds when `sign-line2-prefix` is empty. */
  lemma RegisterBindBuy(s0: DbState, lines: seq<string>, at: Location, now: int, ttl: i32,
                        checkOk: bool, lookupOk: bool, insertOk: bool, id: int, s1: DbState,
                        pending0: map<Player, string>, admin: Sender, msgs: seq<Message>, pending1: map<Player, string>,
                        c: Location, s2: DbState, pending2: map<Player, string>,
                        b: Buyer, chests: Chests, pick: nat, later: int, checkOk': bool,
                        r: Purchase, s3: DbState, b': Buyer)
    requires |lines| == 4 && WellFormed(s0.rows, s0.nextId) && Synced(s0)
    requires IdOf(s0.rows, lines[1]).None?
    requires Register(s0, lines, true, at, now, ttl, checkOk, lookupOk, insertOk, true) == (Registered(id), s1)
    requires admin.kind.PlayerSender?
    requires ModifyResult(s1.rows, pending0, admin, ["modify", lines[1]], true) == (true, pending1, msgs)
    requires BindChest(s1, pending1, admin.kind.player, c, true, true) == (Bound(lines[1]), s2, pending2)
    requires PickFits(chests, pick) && Location(at.world, c.x, c.y, c.z) in chests
    requires ParseInt(lines[3]).Some? && b.balance >= ParseInt(lines[3]).value
    requires Buy(s2, at, lines[1], b, chests, pick, later, ttl, checkOk', true, true, true) == (r, s3, b')
    ensures msgs == [PunchPrompt(lines[1])] && admin.kind.player !in pending2
    ensures r.TicketUsed() && b'.balance == b.balance - ParseInt(lines[3]).value && b'.hand == b.hand - 1
    ensures var slot := chests[Location(at.world, c.x, c.y, c.z)][pick];
            (slot.Some? ==> r == Delivered(slot.value) && b'.inventory == b.inventory + [slot.value]) &&
            (slot.None? ==> r == EmptySlot && b'.inventory == b.inventory)
  {
    var name := lines[1];
    var k := |s0.rows|;
    RegisterNewName(s0, lines, true, at, now, ttl, checkOk, lookupOk, insertOk);
    RegisteredNamesOneRow(s0, lines, true, at, now, ttl, checkOk, lookupOk, insertOk, true);
    assert s1.rows[k].name == name && s1.rows[k].Sign() == at;
    NamedRowUnique(s1.rows, s1.nextId, name, k);

    UpdateChestBinds(s1, name, c.x, c.y, c.z);
    UpdateChestPreservesWellFormed(s1, name, c.x, c.y, c.z, true, true);
    UpdateChestKeepsCache(s1, name, c.x, c.y, c.z, true, true);
    assert s2.rows[k].Sign() == at && s2.rows[k].name == name;
    assert s2.rows[k].Chest() == Location(at.world, c.x, c.y, c.z);
    assert s2.rows[k].price == ParseInt(lines[3]).value;

    PurchaseAtBoundSign(s2, at, b, chests, pick, later, ttl, checkOk', k);
  }
}

=== FILE: utility.dfy ===
/** `GachaPlusUtility`: the pending-bind ("punch") helpers, which keep at
    most one gacha name per player under the `gachaplus.chest` metadata key,
    and the target selector `getTarget`. */
module Utility {
  import opened Common

  /** The `gachaplus.chest` metadata entries this plugin has attached to
      players: the name of the gacha whose chest the player is about to
      punch. */
  class PunchTracker {
    var pending: map<Player, string>

    /** No player carries the entry when the plugin starts. */
    constructor ()
      ensures pending == map[]
    {
      pending := map[];
    }

    /** `isInPunch(player)`: the player carries the entry. */
    predicate IsInPunch(p: Player)
      reads this
    {
      p in pending
    }

    /** `getGachaNameInPunch(player)`: the stored name, or null. */
    function GachaNameInPunch(p: Player): Option<string>
      reads this
    {
      if p in pending then Some(pending[p]) else None
    }

    /** `removePunch(player, gacha)`: the player's entry is dropped; every
        other player keeps theirs. */
    method RemovePunch(p: Player)
      modifies this
      ensures pending == old(pending) - {p}
      ensures !IsInPunch(p) && GachaNameInPunch(p).None?
      ensures forall q :: q != p ==> GachaNameInPunch(q) == old(GachaNameInPunch(q))
    {
      pending := pending - {p};
    }

    /** `setPunch(player, gacha, name)`: the old entry is removed first and
        the new name stored, so the last call wins; every other player keeps
        theirs. */
    method SetPunch(p: Player, name: string)
      modifies this
      ensures pending == old(pending)[p := name]
      ensures IsInPunch(p) && GachaNameInPunch(p) == Some(name)
      ensures forall q :: q != p ==> GachaNameInPunch(q) == old(GachaNameInPunch(q))
    {
      RemovePunch(p);
      pending := pending[p := name];
    }
  }

  // ------------------------------------------------------------------ getTarget

  /** What `getTarget` yields: the list it builds, or the
      `IllegalArgumentException` that `Random.nextInt(0)` throws for `@r`
      when nobody is online. */
  datatype Targets = Players(list: seq<Player>) | NobodyOnline

  /** `Server.getPlayer(name)` over the online players, taken as an exact
      match on the name. */
  function OnlineNamed(online: seq<Player>, name: string): (r: Option<Player>)
    ensures r.Some? ==> r.value in online && r.value.name == name
    ensures r.None? <==> forall i :: 0 <= i < |online| ==> online[i].name != name
  {
    if online == [] then None
    else if online[0].name == name then Some(online[0])
    else OnlineNamed(online[1..], name)
  }

  /** `getTarget(gacha, selector, sender)`: a selector without `@` names one
      player, `@a` is everyone online, `@s` the sending player, `@p` the
      player nearest to a sending player or command block (`nearest`, the
      floating-point search, is a parameter), `@r` the online player at the
      random index `pick`; any other `@` selector yields nothing. A null
      sender (the two-argument overload) is `None`. */
  method GetTarget(selector: string, sender: Option<SenderKind>, online: seq<Player>,
                   nearest: Player, pick: nat) returns (r: Targets)
    requires selector == "@r" && online != [] ==> pick < |online|
    ensures (|selector| == 0 || selector[0] != '@') ==>
              r.Players? && |r.list| <= 1 &&
              (r.list == [] <==> forall i :: 0 <= i < |online| ==> online[i].name != selector) &&
              (forall q :: q in r.list ==> q in online && q.name == selector)
    ensures selector == "@a" ==> r == Players(online)
    ensures selector == "@s" ==> r == Players(if sender.Some? && sender.value.PlayerSender? then [sender.value.player] else [])
    ensures selector == "@p" ==>
              r == Players(if sender.Some? && (sender.value.PlayerSender? || sender.value.BlockSender?) then [nearest] else [])
    ensures selector == "@r" ==> (online == [] <==> r.NobodyOnline?)
    ensures selector == "@r" && online != [] ==> r == Players([online[pick]])
    ensures |selector| > 0 && selector[0] == '@' && selector !in {"@a", "@s", "@p", "@r"} ==> r == Players([])
  {
    var list: seq<Player> := [];
    if |selector| == 0 || selector[0] != '@' {
      var p := OnlineNamed(online, selector);
      if p.Some? {
        list := list + [p.value];
      }
    } else if selector == "@a" {
      list := list + online;
    } else if selector == "@p" {
      if sender.Some? && (sender.value.PlayerSender? || sender.value.BlockSender?) {
        list := list + [nearest];
      }
    } else if selector == "@s" {
      if sender.Some? && sender.value.PlayerSender? {
        list := list + [sender.value.player];
      }
    } else if selector == "@r" {
      var current: seq<Player> := [];
      var i := 0;
      while i < |online|
        invariant 0 <= i <= |online|
        invariant current == online[..i]
      {
        current := current + [online[i]];
        i := i + 1;
      }
      if |current| == 0 {
        return NobodyOnline;
      }
      list := list + [current[pick]];
    }
    return Players(list);
  }
}
